=== FILE: README.md ===
# Focus Vault tracker — a verified model of its core

Focus Vault is a browser time tracker. A signed-in user keeps a list of
projects ("missions"). For one project at a time they run a focus session
that can be paused and resumed. Stopping the session logs a time entry and
credits the project's total. The dashboard shows today's, this week's and
the overall focused time. A second `Utils` object (util.js) adds date windows,
a statistics pass, a day streak and small array and string helpers.

This project models two things:

- the timer state machine with the user record it updates (script.js);
- the pure and loop-based helpers of util.js.

Time is an integer number of milliseconds. The current instant is always a
parameter named `now`. The browser's local time is a fixed offset `tz` from
UTC, so local day `d` begins at the instant `d * 86400000 - tz`.

Modules:

- `Wrappers`: `Option`.
- `Text`: the JavaScript string built-ins the code relies on: decimal
  `toString`, `padStart` and `trim`.
- `Calendar`: local days, weekdays, midnights, and conversion to civil dates.
- `Sequences`: `filter` (as `Keep`) and a stable sort by an integer key.
- `Durations`: script.js's two duration formatters. Each has a reader for
  the text it produces, and a proof of what that reader gets back.
- `FocusVault`: script.js. It contains:
  - the project and entry records;
  - the `Tracker` class, whose fields are the timer globals of script.js
    and the signed-in user's record;
  - the recent-entries list;
  - the dashboard sums.

  Two ghost fields of `Tracker` prove the central invariant: `runs` holds
  the closed running intervals of the current session and `runningSince`
  the start of the open one. With them, a stop logs exactly the session's
  running time, and paused gaps are excluded.
- `Helpers`: util.js.

Three invariants of the user record are stated over the project and entry
lists:

- `Ledgered`: every project's `totalTime` equals the time logged to it.
- `UniqueIds`: project ids are unique.
- `Owned`: every entry belongs to an existing project.

They are not part of `Tracker.Valid()`, which speaks only of the timer
fields, and the source does not keep them unconditionally. The lemmas say
which step keeps which of them, and under what assumption:

- Adding a project keeps all three when its id is fresh (`AddKeepsLedger`).
  The source generates ids and does not check that they are fresh.
- Stopping a session keeps `Ledgered` and `UniqueIds` when the ids are
  unique (`StopKeepsLedger`).
- Stopping keeps `Owned` exactly when the session's project still exists
  (`StopKeepsOwnership`). A project deleted while its session runs leaves
  the stop an entry whose project is gone.
- Deleting a project keeps all three when all three held before
  (`DeleteKeepsLedger`).

When all three hold, the dashboard total equals the sum of the project
totals (`TotalMatchesProjects`).

## Model

| member | source | states |
|---|---|---|
| Durations.FormatDuration | script.js:34-42 | The "HH:MM:SS" display. Its contract is carried by `FormatDurationReadsBack`, `FormatDurationCanonical` and `FormatDurationUnique`. |
| Durations.FormatDurationHours | script.js:44-59 | The compact display always ends in 'h', 'm' or 's'. Below one minute it ends in 's'; from one hour on it ends in 'h' or 'm'. `FormatDurationHoursReadsBack` gives the value it shows. `FormatDurationHoursCanonical` and `FormatDurationHoursUnique` say which spelling shows it. |
| Durations.FormatDurationReadsBack | script.js:34-42 | Read back as hours, minutes and seconds, the "HH:MM:SS" display gives exactly the whole seconds in the input. A zero or negative input gives 0. Minutes and seconds are two digits below 60; hours have at least two digits. util.js:6-14 carries the same formatter, so the same read-back holds for it. The reader also accepts "000:00:00"; `FormatDurationCanonical` and `FormatDurationUnique` fix the spelling. |
| Durations.FormatDurationHoursReadsBack | script.js:44-59 | The compact display reads back as every whole second below one hour. From one hour on it reads back as the whole minutes, seconds dropped. A zero or negative input reads back as 0 seconds. The reader accepts other spellings too ("60m" reads as 3600), so this read-back fixes only the value shown. `FormatDurationHoursCanonical` and `FormatDurationHoursUnique` fix the spelling. |
| Durations.CompactTextReadsBack | script.js:48-58 | Each of the five compact shapes ("Xh Ym", "Xh", "Ym Zs", "Ym", "Zs") reads back as its hours and minutes from one hour on, and as its minutes and seconds below one hour. |
| Text.NatToStringValue | script.js:41 | The decimal spelling of a number reads back as that number. |
| Durations.FormatDurationCanonical | script.js:34-42 | The hours field of the "HH:MM:SS" display is exactly two digits, or has no leading '0'. `padStart(2, '0')` pads only below ten hours. |
| Durations.FormatDurationUnique | script.js:34-42 | Any text with that hours-field rule that reads back as the whole seconds shown is the display itself. Together with `FormatDurationCanonical` and `FormatDurationReadsBack`, the display is the one such spelling of its value. |
| Durations.HoursField | script.js:41 | An all-digit hours field of two digits, or of more digits without a leading '0', is the padded spelling of its own value. |
| Durations.TwoDigitField | script.js:41 | Any two digits are the padded spelling of their value, "07" as well as "42". |
| Durations.CompactTextCanonical | script.js:52-58 | Each of the five compact shapes splits into canonical groups. There are one or two groups, in units that follow each other (h then m, or m then s). Each count is a plain decimal without leading zeros. Minutes and seconds are below 60. No count is zero except in the lone "0s". |
| Durations.FormatDurationHoursCanonical | script.js:44-59 | The compact display always splits into canonical groups, the zero and negative case "0s" included. |
| Durations.CanonicalUnique | script.js:52-58 | Two canonical group lists worth the same number of seconds are the same list, so no value has two canonical spellings. |
| Durations.CompactGroupsInjective | script.js:48-58 | Two texts that split into the same groups are the same text. |
| Durations.FormatDurationHoursUnique | script.js:44-59 | Any canonical compact text worth the value shown is the display itself. "60m", "0m 5s", "90s" and "0m 0s" are all ruled out as spellings the formatter could pick. |
| Text.NatToStringLead | script.js:41 | A decimal spelling starts with '0' exactly when the number is zero. |
| Text.PlainDigits | script.js:41 | A non-empty all-digit text with no leading '0' is the decimal spelling of a positive number. |
| Text.ZeroPadValue | script.js:41 | Left-padding digits with zeros keeps them digits and keeps their value. |
| Text.PadStart | script.js:41 | `padStart` reaches the width, keeps the text as its suffix and fills only with the fill character. |
| Text.Trim | util.js:107 | `trim` returns a contiguous slice of the input with no white space at either end. |
| Calendar.Weekday | util.js:70 | `getDay` is in 0..6. |
| Calendar.WeekdayAnchor | util.js:70 | Local day 3 (1970-01-04) and the day of 2024-01-07 are Sundays (`getDay` 0), and the weekday repeats every seven days. |
| Calendar.MonthDaysNonEmpty | util.js:75-79 | Every month starts before the next one does, so a month's day range is never empty. |
| Calendar.DayOfIff | util.js:60-67 | An instant lies on local day d exactly when it is between d's midnight and one millisecond before the next midnight. |
| Calendar.DaySpan | util.js:63-79 | An instant is in [midnight of day a, midnight of day b) exactly when its day is in [a, b). |
| Calendar.WeekStartIsSunday | util.js:68-71 | Going back `getDay` days lands on a Sunday at most six days earlier. |
| Calendar.MidnightGap | util.js:407-409 | The gap between two local midnights, divided by a day, is the difference of their day numbers. |
| Sequences.Keep | script.js:468-469 | `filter` keeps exactly the elements that satisfy the predicate, never more, and the whole input when all satisfy it. |
| Sequences.KeepAppend | script.js:468-469 | Filtering a concatenation filters each part and concatenates the results, so the survivors keep their relative order. |
| Sequences.KeepNone | script.js:468-469 | Filtering keeps nothing when no element satisfies the predicate. |
| Sequences.Sort | script.js:522-524 | The sort result is ordered by the key, ascending or descending, and is a permutation of its input. |
| Sequences.OrderedPrefix | script.js:526 | A prefix of a sorted list is sorted and part of the list, and no element left out precedes one kept. |
| FocusVault.FindProject | script.js:265 | `find` by id returns the first project with that id, or nothing when no project has it. |
| FocusVault.Credit | script.js:344-347 | Crediting keeps the number of projects. |
| FocusVault.CreditChangesOneTotal | script.js:344-347 | Only the first project with the session's id changes, and only its total, which grows by the duration. Every other project is unchanged, including a later project that carries the same id. |
| FocusVault.CreditSum | script.js:344-347 | The sum of the totals grows by the duration exactly when a project with the session's id exists, and stays the same otherwise. |
| FocusVault.AddKeepsLedger | script.js:437-458 | Appending a project with zero time and a fresh id keeps the three invariants. |
| FocusVault.StopKeepsLedger | script.js:342-347 | Logging an entry and crediting its project keeps every total equal to the time logged to that project. |
| FocusVault.StopKeepsOwnership | script.js:342-347 | After a stop every entry has its project, exactly when the session's project still exists. |
| FocusVault.DeleteKeepsLedger | script.js:468-469 | Removing a project with its entries keeps the three invariants for the remaining projects. |
| FocusVault.DeleteUnknownChangesNothing | script.js:468-469 | When every entry has its project (`Owned`), deleting an id no project carries leaves both lists unchanged. |
| FocusVault.OwnTimeSplit | script.js:468-469 | The time deleted with a project plus the time kept is the previous total. |
| FocusVault.TotalMatchesProjects | script.js:590 | Under the three invariants, the total logged time equals the sum of the project totals. |
| FocusVault.Recent | script.js:522-526 | The entries list: sort latest first, keep ten. Its contract is carried by `RecentIsLatest`. |
| FocusVault.RecentIsLatest | script.js:522-526 | The recent list holds min(10, n) entries, latest start first, drawn from the entries. No entry left out started later than one shown. |
| FocusVault.Dashboard | script.js:571-597 | The four dashboard figures. Their contract is carried by `DashboardBounds`. |
| FocusVault.DashboardBounds | script.js:571-590 | Over non-negative durations, 0 ≤ today ≤ week ≤ total. The project count is the list length. Under the invariants the total equals the sum of project totals. |
| FocusVault.Tracker.SaveUserData | script.js:427-432 | The record is stored under the user's email and as the current user; nothing else in storage changes. |
| FocusVault.Tracker.Start | script.js:253-292 | No project id: refused as NoProjectSelected. Unknown id: refused as ProjectNotFound. Both leave the state unchanged. Otherwise the timer runs unpaused with elapsed 0, and the session holds the id, the project's name, the trimmed task and start = now. |
| FocusVault.Tracker.Pause | script.js:294-305 | A no-op unless running and not paused. Otherwise it pauses with elapsed = now − session start, which equals the running time so far. |
| FocusVault.Tracker.Resume | script.js:307-321 | A no-op unless running and paused. Otherwise the session start becomes now − elapsed, so the running time continues from the paused value. |
| FocusVault.Tracker.Stop | script.js:323-350 | Not running: nothing changes. Running: one entry is appended carrying the running time, which excludes every paused gap, and the session's project, task and start. Only that project's total grows, by the same duration. The record is saved and the timer is idle. |
| FocusVault.LogEntry | script.js:330-340 | The entry a stop builds from the session, the new id, the running time and `now`. `Tracker.Stop` states that exactly this entry is appended. |
| FocusVault.Tracker.StopAsWritten | script.js:323-357 | A stop while idle neither changes anything nor raises. A stop of a running session raises an error after making all the changes of `Stop`: the same entry is appended, the session's project is credited with the running time, the timer is idle, and the record is saved under the email and as the current user. |
| FocusVault.Tracker.Reset | script.js:359-374 | The timer is idle: not running, not paused, no session, elapsed 0. |
| FocusVault.Tracker.UpdateDisplay | script.js:376-386 | While running, elapsed becomes the running time at now. While paused it keeps the paused value. The display is that value formatted. |
| FocusVault.Tracker.AddProject | script.js:437-464 | A blank name is refused and nothing changes. Otherwise one project is appended with trimmed name and description, zero time, the given id and creation time, and the record is saved. |
| FocusVault.Tracker.DeleteProject | script.js:466-475 | Declined: nothing changes. Confirmed: exactly the projects with that id and the entries logged to it are removed, and the record is saved. |
| FocusVault.Tracker.Logout | script.js:225-237 | Signs out exactly when no session runs or the user confirms. Declining changes nothing. A confirmed sign-out during a session first logs that session: the entry with its running time is appended, its project is credited with that time, and the record is saved. |
| FocusVault.Tracker.LogoutAsWritten | script.js:225-237 | Signs out only when no session runs: the user is then signed out, the current user is cleared, and the record and saved users are unchanged. Declining during a session changes nothing. A confirmed sign-out during a session appends the session's entry, credits its project and saves the record, yet the user stays signed in. |
| FocusVault.PausedGapScenario | script.js:294-328 | Start at t0, pause at +30 s, resume at +90 s, stop at +150 s: 90000 ms are logged and credited. |
| FocusVault.LogoutDuringSessionScenario | script.js:225-237 | A confirmed sign-out during a session leaves the user signed in with one entry logged. |
| Helpers.GetDateRange | util.js:58-83 | A window exists exactly for "today", "week" and "month"; any other name gives none. The 'month' window is the corrected one (see Left out). |
| Helpers.TodayRange | util.js:63-67 | An instant is in today's window exactly when it lies on today's local day. |
| Helpers.WeekRange | util.js:68-74 | The week starts on the Sunday on or before today. An instant is in the window exactly when its day is one of that week's seven days. |
| Helpers.MonthWindowAsWritten | util.js:75-79 | The 'month' window as the source builds it, ending at 23:59:59.000 of the last day. `MonthEndAsWrittenMisses` and `JanuaryLastSecond` carry its contract. |
| Helpers.MonthWindow | util.js:75-79 | The corrected 'month' window, ending one millisecond before the next month. `MonthRange` carries its contract. |
| Helpers.MonthRange | util.js:75-79 | An instant is in the corrected month window exactly when its day lies in the current month. |
| Helpers.MonthEndAsWrittenMisses | util.js:78 | An instant in the last 999 ms of a month lies on the month's last day, yet is outside the as-written window. It is always inside the corrected window. |
| Helpers.JanuaryLastSecond | util.js:78 | 2024-01-31 23:59:59.500 UTC is in January but outside the as-written January window. |
| Helpers.TallyOf | util.js:163-181 | A window's project set holds exactly the ids of the entries that started inside it. |
| Helpers.TallyCounts | util.js:155-182 | A window's session count is the number of entries that started inside it, and its time is their summed duration. |
| Helpers.WindowBounds | util.js:151-187 | Sessions ≤ entries, distinct projects ≤ sessions, and over non-negative durations 0 ≤ window time ≤ total time. |
| Helpers.WindowMonotone | util.js:163-181 | A window inside another counts no more time, sessions or projects. |
| Helpers.CalculateStats | util.js:141-187 | Total time is the sum of durations with a missing one counted as 0. Total sessions is the entry count, total projects the given count. Each window's figures are its tally. |
| Helpers.TodayWithinWeek | util.js:143-181 | Today's time, sessions and project set are within this week's, which are within the totals. |
| Helpers.CalculateStreak | util.js:395-419 | Sorts the caller's array latest first, in place. The result is at most the entry count. Some entry started on each of the `streak` days ending today, and none on the day before them. |
| Helpers.SortLatestFirst | util.js:398 | The array becomes its entries sorted by start, latest first. |
| Helpers.CountStreak | util.js:399-418 | Over entries sorted latest first, the loop with its early exit returns the length of the run of days, ending today, on each of which an entry started. |
| Helpers.StreakStep | util.js:405-415 | One step of the loop, counting or skipping an entry, keeps the streak's two facts about the entries seen. |
| Helpers.StreakStop | util.js:412-414 | Once an entry lies more than streak + 1 days back, no later entry can extend the streak. |
| Helpers.GroupBy | util.js:120-127 | The groups have exactly the keys that occur among the items. Each group holds the items with its key, in input order. |
| Helpers.Groups | util.js:121-126 | The groups `reduce` builds push by push. `GroupsAreFilters`, `GroupsPlaceEachItem` and `GroupsPartition` carry its contract. |
| Helpers.GroupsAreFilters | util.js:120-127 | Building the groups one push at a time gives, for each key seen, the items with that key in input order, and no other keys. |
| Helpers.GroupsPlaceEachItem | util.js:120-127 | Every item is in the group of its key. Every group is non-empty and holds only items with its key. |
| Helpers.GroupsPartition | util.js:120-127 | Over a list of the keys without repeats, the group sizes add up to the number of items. |
| Helpers.SortBy | util.js:129-138 | The result is a permutation of the input, ascending for "asc" and descending for any other direction. |
| Helpers.Sanitize | util.js:105-108 | Empty input gives "". The result has no '<' or '>', its characters come from the trimmed input, and every other character of the trimmed input is kept. |
| Helpers.SanitizeTwice | util.js:105-108 | Sanitizing again only trims again. |
| Helpers.SanitizeNotIdempotent | util.js:105-108 | Sanitizing is not idempotent: "a <" gives "a ", which sanitizes again to "a". |
| Helpers.Truncate | util.js:110-113 | Empty input gives "". Text within the limit is unchanged. Longer text becomes its first maxLength characters followed by "...". |
| Helpers.TruncateIdempotent | util.js:110-113 | Truncating an already truncated text with the same limit changes nothing. |
| Helpers.HexByte | util.js:327-329 | Two hex digits give a byte below 256. |
| Helpers.ParseHexColor | util.js:323-330 | A colour is read only from exactly six hex digits with an optional leading '#', and each channel is below 256. |
| Helpers.ParseHexColorExact | util.js:323-330 | A colour is read exactly when the text is six hex digits, in either case, with an optional leading '#'. Each channel is the value of its pair of digits, as `parseInt(…, 16)` gives it. |
| Helpers.HexToRgb | util.js:323-330 | The colour `hexToRgba` shows: each channel is below 256, and any colour other than the gold default (212, 175, 55) is what the text parses as. |
| Helpers.HexRoundTrip | util.js:323-330 | Every colour written "#rrggbb" reads back as itself. |

## Left out

- Everything on the page is out of the model: showing and hiding sections, the button states, the HTML built for the project and entry lists, the reports modal, notifications and their timeouts. It is presentation only.
- The `confirm` dialogs become a boolean `confirmed` argument to `DeleteProject` and `Logout`.
- `localStorage` is two fields holding the saved users map and the saved current user. Storage errors and `isStorageAvailable` are left out.
- `setInterval` and `clearInterval` are left out: the model has no scheduled ticks, and `UpdateDisplay` stands for one tick.
- `new Date()`, `Date.now` and `generateId` become the parameters `now` and `entryId`/`id`. Several `new Date()` calls inside one operation are taken to give the same instant.
- Local time is a fixed offset from UTC. Daylight-saving changes are not modelled, so a day is always 86400000 ms.
- Dates are integers, not ISO strings. The start time stored as an ISO string and parsed back is taken to keep its millisecond value.
- `Calendar.CivilFromDays` and `Calendar.DaysFromCivil` follow the proleptic Gregorian calendar. Their agreement with that calendar is not proved, beyond the dates in `Helpers.JanuaryLastSecond` and `Calendar.WeekdayAnchor`, and the fact that every month starts before the next (`Calendar.MonthDaysNonEmpty`).
- Helpers.MonthRange: relies on the unproved civil-date conversion for where a month begins and ends.
- Floating-point work is left out: util.js's `formatDurationHours` (`toFixed`), the productivity score, `avgSessionTime` and `calculateProductivityScore`, and the alpha of `hexToRgba`.
- Helpers.ParseHexColor: models only the colour parse of `hexToRgba`, not the "rgba(…)" text.
- Locale-dependent formatting is left out: `formatDate`, `toDateString`, `toLocaleDateString`, `toLocaleTimeString`. An entry's `date` is its local day number.
- `validateEmail`, `validateProjectName`, `validatePassword` and `getProjectColor` depend on configuration tables that are not part of this model.
- Of the `auth` module only `logout` is modelled. Sign-in and registration compare credentials and read form fields; the `Tracker` constructor stands for the state after a sign-in.
- `debounce`, `throttle`, `animate`, `measure` and `downloadJSON` are scheduling, timing or file I/O.
- FocusVault.Tracker.Start: follows the code, which does not check whether a session already runs. The page disables the start button instead, and that is not modelled.
- Durations.FormatDurationReadsBack: the `!milliseconds` test also catches `NaN` and a missing value. Durations here are always integers.
- Helpers.DurationOf: a missing duration counts as 0, as `entry.duration || 0` does. A `NaN` duration is not modelled.
- FocusVault.Credit: a project's `totalTime` is always a number here, so `(project.totalTime || 0)` is just `totalTime`.
- Helpers.GetDateRange: the 'month' window is the corrected one (`MonthWindow`, ending one millisecond before the next month). The source's window is `MonthWindowAsWritten`, which ends at 23:59:59.000; see Findings.
- Default arguments are not modelled: `truncateString`'s `maxLength = 50`, `sortBy`'s `direction = 'asc'`, `calculateStats`'s `projects = []` and `hexToRgba`'s `alpha = 1`. The model always takes explicit values.
- Helpers.CalculateStats: takes the project count rather than the projects list. Its month window is the corrected one.
- Helpers.GroupBy: keys are compared by value. JavaScript turns property names into strings, so keys that print alike (1 and "1") would share a group there. The source groups into a plain object, so a key naming an `Object.prototype` member ("toString", "constructor", "valueOf", "__proto__") makes `groups[group] || []` pick up the inherited value and the `push` that follows throws. The model groups such keys like any other.
- Helpers.Truncate: lengths count Unicode scalar values. JavaScript's `length` and `substring` count UTF-16 code units, so text with characters above U+FFFF (an emoji, say) is cut at a different place: "😀😀😀" with maxLength 2 keeps one emoji there and two here. The source can also split a surrogate pair; the model cannot.
- Helpers.SortBy: the key is an integer function rather than a property name compared with `<` on arbitrary values.
- Helpers.CalculateStreak: `dayDiff` is an exact whole number here. With a daylight-saving change the source's division can give a fraction.

## Findings

| source | as written | input that shows it | evidently intended | confidence | as-written member | corrected member |
|---|---|---|---|---|---|---|
| script.js:356 | `timer.stop` builds its completion notice from `currentSession.projectName` (script.js:356) after `this.reset()` (script.js:350) set `currentSession` to null (script.js:364). Every stop of a running session raises a TypeError after the entry is logged and saved. `auth.logout` calls `timer.stop()` and so never reaches the sign-out. | A session is running; the user logs out and confirms. The session is logged, but the user stays signed in. | Read the project name before the reset (or from the saved session), so the notice shows and logout completes. | not executed | FocusVault.Tracker.LogoutAsWritten, FocusVault.LogoutDuringSessionScenario | FocusVault.Tracker.Logout |
| util.js:78 | The 'month' window ends at `new Date(y, m + 1, 0, 23, 59, 59)`, which is 23:59:59.000 on the month's last day, one second before the next month. Entries started in the last 999 ms of a month fall outside it. | now = 2024-01-31T23:59:59.500Z, time zone UTC: the instant is in January but outside the January window. | The window should end one millisecond before the next month, as 'today' and 'week' do. | not executed | Helpers.MonthWindowAsWritten, Helpers.MonthEndAsWrittenMisses, Helpers.JanuaryLastSecond | Helpers.MonthWindow, Helpers.GetDateRange, Helpers.MonthRange |

=== FILE: calendar.dfy ===
/**
 * Local calendar arithmetic on millisecond timestamps. The browser's time
 * zone is a fixed offset `tz` (local wall-clock time = UTC instant + tz);
 * local day numbers count from the local 1970-01-01.
 */
module Calendar {

  const MsPerDay: nat := 86400000

  /** The local day on which instant `t` falls. */
  function DayOf(t: int, tz: int): int { (t + tz) / MsPerDay }

  /** The instant of local midnight at the start of local day `d`. */
  function MidnightOf(d: int, tz: int): int { d * MsPerDay - tz }

  /** `Date.prototype.getDay`: 0 for Sunday; local day 0 was a Thursday. */
  function Weekday(d: int): (w: nat)
    ensures w < 7
  {
    (d + 4) % 7
  }

  /** Weekday agrees with the calendar: 1970-01-04 and 2024-01-07 were Sundays, and weekdays repeat every 7 days. */
  lemma WeekdayAnchor(d: int)
    ensures Weekday(3) == 0
    ensures Weekday(DaysFromCivil(1970, 1, 4)) == 0 && Weekday(DaysFromCivil(2024, 1, 7)) == 0
    ensures Weekday(d + 7) == Weekday(d)
  {
    assert DaysFromCivil(1970, 1, 4) == 3;
    assert DaysFromCivil(2024, 1, 7) == 19729;
  }

  /** Local midnight of the Sunday on or before local day `d`. */
  function WeekStartOf(d: int, tz: int): int { MidnightOf(d - Weekday(d), tz) }

  /** An instant lies on local day `d` exactly when it lies in that day's 24 hours. */
  lemma DayOfIff(t: int, d: int, tz: int)
    ensures DayOf(t, tz) == d <==> MidnightOf(d, tz) <= t <= MidnightOf(d, tz) + MsPerDay - 1
  {
    var q := DayOf(t, tz);
    assert q * MsPerDay <= t + tz < q * MsPerDay + MsPerDay;
    if q < d {
      assert q * MsPerDay + MsPerDay <= d * MsPerDay;
    } else if q > d {
      assert d * MsPerDay + MsPerDay <= q * MsPerDay;
    }
  }

  /** The instants from the midnight starting day `a` up to the one starting day `b` are those of days a, ..., b - 1. */
  lemma DaySpan(t: int, a: int, b: int, tz: int)
    ensures MidnightOf(a, tz) <= t <= MidnightOf(b, tz) - 1 <==> a <= DayOf(t, tz) < b
  {
    var q := DayOf(t, tz);
    DayOfIff(t, q, tz);
    if q < a {
      assert q * MsPerDay + MsPerDay <= a * MsPerDay;
    }
    if q >= b {
      assert b * MsPerDay <= q * MsPerDay;
    }
    if a <= q {
      assert a * MsPerDay <= q * MsPerDay;
    }
    if q < b {
      assert q * MsPerDay + MsPerDay <= b * MsPerDay;
    }
  }

  /** Two local midnights lie a whole number of days apart. */
  lemma MidnightGap(a: int, b: int, tz: int)
    ensures (MidnightOf(a, tz) - MidnightOf(b, tz)) / MsPerDay == a - b
  {
    assert MidnightOf(a, tz) - MidnightOf(b, tz) == (a - b) * MsPerDay;
  }

  /** The week containing day `d` starts on a Sunday, at most six days earlier. */
  lemma WeekStartIsSunday(d: int)
    ensures Weekday(d - Weekday(d)) == 0
    ensures d - 6 <= d - Weekday(d) <= d
  {
    var q := (d + 4) / 7;
    assert d + 4 == 7 * q + Weekday(d);
    assert d - Weekday(d) + 4 == 7 * q;
  }

  /** Proleptic Gregorian (year, month 1-12, day 1-31) of local day `z`. */
  function CivilFromDays(z: int): (int, int, int)
  {
    var z' := z + 719468;
    var era := z' / 146097;
    var doe := z' % 146097;
    var yoe := (doe - doe / 1460 + doe / 36524 - doe / 146096) / 365;
    var doy := doe - (365 * yoe + yoe / 4 - yoe / 100);
    var mp := (5 * doy + 2) / 153;
    var day := doy - (153 * mp + 2) / 5 + 1;
    var month := if mp < 10 then mp + 3 else mp - 9;
    (if month <= 2 then yoe + era * 400 + 1 else yoe + era * 400, month, day)
  }

  /** Local day number of the proleptic Gregorian date (year, month 1-12, day). */
  function DaysFromCivil(year: int, month: int, day: int): int
  {
    var y := if month <= 2 then year - 1 else year;
    var era := y / 400;
    var yoe := y - era * 400;
    var mp := if month > 2 then month - 3 else month + 9;
    var doy := (153 * mp + 2) / 5 + day - 1;
    var doe := yoe * 365 + yoe / 4 - yoe / 100 + doy;
    era * 146097 + doe - 719468
  }

  /** First local day of the month containing local day `d`, and first day of the next month. */
  function MonthDays(d: int): (int, int)
  {
    var (y, m, _) := CivilFromDays(d);
    (DaysFromCivil(y, m, 1), if m == 12 then DaysFromCivil(y + 1, 1, 1) else DaysFromCivil(y, m + 1, 1))
  }

  /** The day number of local 1 March of year `y`, less 719468: where `DaysFromCivil`'s year starts. */
  function YearStart(y: int): int
  {
    var era := y / 400;
    var yoe := y - era * 400;
    era * 146097 + yoe * 365 + yoe / 4 - yoe / 100
  }

  /** A year (March to February) has at least 365 days. */
  lemma YearStep(y: int)
    ensures YearStart(y + 1) - YearStart(y) >= 365
  {
    var era, yoe := y / 400, y - y / 400 * 400;
    if yoe == 399 {
      assert (y + 1) / 400 == era + 1;
    } else {
      assert (y + 1) / 400 == era;
      var a := yoe + 1;
      if a % 100 == 0 {
        assert a / 100 == yoe / 100 + 1;
        assert a / 4 == yoe / 4 + 1;
      } else {
        assert a / 100 == yoe / 100;
      }
    }
  }

  /** The first day of a month precedes the first day of the following one. */
  lemma MonthStep(y: int, m: int)
    ensures DaysFromCivil(y, m, 1) < (if m == 12 then DaysFromCivil(y + 1, 1, 1) else DaysFromCivil(y, m + 1, 1))
  {
    if m == 2 {
      YearStep(y - 1);
      assert DaysFromCivil(y, 2, 1) == YearStart(y - 1) + 337 - 719468;
      assert DaysFromCivil(y, 3, 1) == YearStart(y) - 719468;
    } else if m != 12 {
      var mp := if m > 2 then m - 3 else m + 9;
      assert (153 * (mp + 1) + 2) / 5 > (153 * mp + 2) / 5;
    }
  }

  /** Every month has a first day before the next month's: `MonthDays` is never empty. */
  lemma MonthDaysNonEmpty(d: int)
    ensures MonthDays(d).0 < MonthDays(d).1
  {
    var (y, m, _) := CivilFromDays(d);
    MonthStep(y, m);
  }
}

=== FILE: durations.dfy ===
/**
 * The two integer duration formatters of the tracker's `Utils` object
 * (script.js). util.js carries a character-for-character copy of
 * `formatDuration`; `FormatDuration` below stands for both.
 *
 * Each formatter is paired with a reader for the text it produces, and the
 * lemmas prove what a reader of the display learns: the clock form shows the
 * whole seconds elapsed exactly, the compact form is exact to the second
 * below one hour and exact to the minute from one hour on.
 */
module Durations {
  import opened Wrappers
  import opened Text

  const MsPerSecond: nat := 1000

  function TwoDigits(n: nat): string { PadStart(NatToString(n), 2, '0') }

  /** `formatDuration`: "HH:MM:SS", "00:00:00" for a zero or negative count. */
  function FormatDuration(ms: int): string
  {
    if ms <= 0 then "00:00:00"
    else
      var seconds := ms / MsPerSecond;
      var minutes := seconds / 60;
      var hours := minutes / 60;
      TwoDigits(hours) + ":" + TwoDigits(minutes % 60) + ":" + TwoDigits(seconds % 60)
  }

  /**
   * Splits a clock display into its three digit fields: the hours field
   * (at least two digits) before the first of two colons, then minutes and
   * seconds of exactly two digits each.
   */
  function ClockFields(s: string): Option<(string, string, string)>
  {
    if |s| < 8 || s[|s| - 6] != ':' || s[|s| - 3] != ':' then None
    else
      var h, m, sec := s[..|s| - 6], s[|s| - 5..|s| - 3], s[|s| - 2..];
      if AllDigits(h) && AllDigits(m) && AllDigits(sec) then Some((h, m, sec)) else None
  }

  /** Reads a clock display back as a number of seconds; minutes and seconds must be below 60. */
  function ParseClock(s: string): Option<nat>
  {
    match ClockFields(s)
    case None => None
    case Some((h, m, sec)) =>
      if DigitsValue(m) >= 60 || DigitsValue(sec) >= 60 then None
      else Some(DigitsValue(h) * 3600 + DigitsValue(m) * 60 + DigitsValue(sec))
  }

  lemma TwoDigitsFacts(n: nat)
    ensures AllDigits(TwoDigits(n)) && DigitsValue(TwoDigits(n)) == n
    ensures 2 <= |TwoDigits(n)| && (n < 100 ==> |TwoDigits(n)| == 2)
  {
    NatToStringValue(n);
    ZeroPadValue(NatToString(n), 2);
  }

  lemma ClockFieldsOf(H: string, M: string, S: string)
    requires AllDigits(H) && AllDigits(M) && AllDigits(S)
    requires 2 <= |H| && |M| == 2 && |S| == 2
    ensures ClockFields(H + ":" + M + ":" + S) == Some((H, M, S))
  {
    var s := H + ":" + M + ":" + S;
    assert s[..|s| - 6] == H;
    assert s[|s| - 5..|s| - 3] == M;
    assert s[|s| - 2..] == S;
  }

  lemma ClockValue(s: string, H: string, M: string, S: string, h: nat, m: nat, sec: nat)
    requires ClockFields(s) == Some((H, M, S))
    requires AllDigits(H) && AllDigits(M) && AllDigits(S)
    requires DigitsValue(H) == h && DigitsValue(M) == m && DigitsValue(S) == sec && m < 60 && sec < 60
    ensures ParseClock(s) == Some(h * 3600 + m * 60 + sec)
  {
    var f := ClockFields(s);
    assert f.value.0 == H && f.value.1 == M && f.value.2 == S;
    assert !(DigitsValue(M) >= 60 || DigitsValue(S) >= 60);
  }

  lemma ClockOf(h: nat, m: nat, sec: nat)
    requires m < 60 && sec < 60
    ensures ParseClock(TwoDigits(h) + ":" + TwoDigits(m) + ":" + TwoDigits(sec)) == Some(h * 3600 + m * 60 + sec)
  {
    var H, M, S := TwoDigits(h), TwoDigits(m), TwoDigits(sec);
    TwoDigitsFacts(h); TwoDigitsFacts(m); TwoDigitsFacts(sec);
    ClockFieldsOf(H, M, S);
    ClockValue(H + ":" + M + ":" + S, H, M, S, h, m, sec);
  }

  lemma ClockReads(text: string, h: nat, m: nat, sec: nat, v: int)
    requires m < 60 && sec < 60
    requires text == TwoDigits(h) + ":" + TwoDigits(m) + ":" + TwoDigits(sec)
    requires v == h * 3600 + m * 60 + sec
    ensures ParseClock(text) == Some(v)
  {
    ClockOf(h, m, sec);
  }

  /**
   * The clock form is exact to the second: reading it back gives the number
   * of whole seconds in `ms` (zero for a zero or negative count), with
   * minutes and seconds each two digits below 60.
   */
  lemma {:induction false} FormatDurationReadsBack(ms: int)
    ensures ParseClock(FormatDuration(ms)) == Some(if ms <= 0 then 0 else ms / MsPerSecond)
  {
    var text := FormatDuration(ms);
    if ms <= 0 {
      assert text == TwoDigits(0) + ":" + TwoDigits(0) + ":" + TwoDigits(0);
      ClockReads(text, 0, 0, 0, 0);
    } else {
      var seconds := ms / MsPerSecond;
      var minutes := seconds / 60;
      assert text == TwoDigits(minutes / 60) + ":" + TwoDigits(minutes % 60) + ":" + TwoDigits(seconds % 60);
      ClockReads(text, minutes / 60, minutes % 60, seconds % 60, seconds);
    }
  }

  // ---------------------------------------------------------------------------
  // Which spelling the clock display picks

  /** The clock display's spelling: the hours field is two digits, or longer with no leading zero. */
  predicate ClockCanonical(s: string)
  {
    && ClockFields(s).Some?
    && var h := ClockFields(s).value.0;
      |h| == 2 || (|h| > 0 && h[0] != '0')
  }

  /** A clock display splits into its fields around the two colons. */
  lemma ClockFieldsJoin(s: string)
    requires ClockFields(s).Some?
    ensures var (H, M, S) := ClockFields(s).value;
      && s == H + ":" + M + ":" + S
      && |H| >= 2 && |M| == 2 && |S| == 2 && AllDigits(H) && AllDigits(M) && AllDigits(S)
  {
    var H, M, S := s[..|s| - 6], s[|s| - 5..|s| - 3], s[|s| - 2..];
    assert s == H + [s[|s| - 6]] + M + [s[|s| - 3]] + S;
  }

  /** A two-digit field is the zero-padded spelling of its value. */
  lemma TwoDigitField(s: string)
    requires |s| == 2 && AllDigits(s)
    ensures s == TwoDigits(DigitsValue(s))
  {
    if s[0] == '0' {
      assert s == ['0', s[1]];
      PaddedDigit(s, s[1]);
    } else {
      PlainDigits(s);
    }
  }

  /** "0d" is the zero-padded spelling of the digit d. */
  lemma PaddedDigit(s: string, c: char)
    requires IsDigit(c) && s == ['0', c]
    ensures s == TwoDigits(DigitsValue(s))
  {
    assert DigitsValue(s) == DigitValue(c) by {
      assert s[..1] == ['0'] && ['0'][..0] == [];
    }
    assert NatToString(DigitValue(c)) == [c] by {
      assert DigitChar(DigitValue(c)) == c;
    }
    assert s == Repeat('0', 1) + [c];
  }

  /** An hours field in display spelling is the zero-padded spelling of its value. */
  lemma HoursField(s: string)
    requires |s| >= 2 && AllDigits(s) && (|s| == 2 || s[0] != '0')
    ensures s == TwoDigits(DigitsValue(s))
  {
    if |s| == 2 {
      TwoDigitField(s);
    } else {
      PlainDigits(s);
    }
  }

  /** `padStart(2, '0')` leaves a leading zero only in a field of exactly two digits. */
  lemma TwoDigitsLead(n: nat)
    ensures |TwoDigits(n)| == 2 || TwoDigits(n)[0] != '0'
  {
    TwoDigitsFacts(n);
    if n >= 100 {
      NatToStringLead(n);
    }
  }

  lemma ClockCanonicalOf(text: string, h: nat, m: nat, sec: nat)
    requires m < 60 && sec < 60
    requires text == TwoDigits(h) + ":" + TwoDigits(m) + ":" + TwoDigits(sec)
    ensures ClockCanonical(text) && ClockFields(text).value.0 == TwoDigits(h)
  {
    TwoDigitsFacts(h); TwoDigitsFacts(m); TwoDigitsFacts(sec);
    ClockFieldsOf(TwoDigits(h), TwoDigits(m), TwoDigits(sec));
    TwoDigitsLead(h);
  }

  /** The clock display always follows its spelling: no extra leading zeros in the hours. */
  lemma FormatDurationCanonical(ms: int)
    ensures ClockCanonical(FormatDuration(ms))
  {
    var text := FormatDuration(ms);
    if ms <= 0 {
      assert text == TwoDigits(0) + ":" + TwoDigits(0) + ":" + TwoDigits(0);
      ClockCanonicalOf(text, 0, 0, 0);
    } else {
      var seconds := ms / MsPerSecond;
      var minutes := seconds / 60;
      assert text == TwoDigits(minutes / 60) + ":" + TwoDigits(minutes % 60) + ":" + TwoDigits(seconds % 60);
      ClockCanonicalOf(text, minutes / 60, minutes % 60, seconds % 60);
    }
  }

  /**
   * The clock display is the only text in clock spelling that reads back
   * as the whole seconds in `ms`.
   */
  lemma FormatDurationUnique(ms: int, s: string)
    requires ClockCanonical(s)
    requires ParseClock(s) == Some(if ms <= 0 then 0 else ms / MsPerSecond)
    ensures s == FormatDuration(ms)
  {
    var h, m, sec := ClockSpelling(s);
    var h', m', sec' := FormatDurationSpelling(ms);
    SplitUnique(h, m, sec, h', m', sec');
  }

  /** A clock text in canonical spelling is the padded spelling of its three fields. */
  lemma ClockSpelling(s: string) returns (h: nat, m: nat, sec: nat)
    requires ClockCanonical(s) && ParseClock(s).Some?
    ensures m < 60 && sec < 60 && ParseClock(s) == Some(h * 3600 + m * 60 + sec)
    ensures s == TwoDigits(h) + ":" + TwoDigits(m) + ":" + TwoDigits(sec)
  {
    var (H, M, S) := ClockFields(s).value;
    ClockFieldsJoin(s);
    h, m, sec := DigitsValue(H), DigitsValue(M), DigitsValue(S);
    assert m < 60 && sec < 60 && ParseClock(s) == Some(h * 3600 + m * 60 + sec);
    HoursField(H);
    TwoDigitField(M);
    TwoDigitField(S);
    assert s == H + ":" + M + ":" + S;
  }

  /** The clock display is the padded spelling of the whole hours, minutes and seconds it shows. */
  lemma FormatDurationSpelling(ms: int) returns (h: nat, m: nat, sec: nat)
    ensures m < 60 && sec < 60 && h * 3600 + m * 60 + sec == (if ms <= 0 then 0 else ms / MsPerSecond)
    ensures FormatDuration(ms) == TwoDigits(h) + ":" + TwoDigits(m) + ":" + TwoDigits(sec)
  {
    if ms <= 0 {
      h, m, sec := 0, 0, 0;
    } else {
      var seconds := ms / MsPerSecond;
      var minutes := seconds / 60;
      h, m, sec := minutes / 60, minutes % 60, seconds % 60;
      assert seconds == h * 3600 + m * 60 + sec by {
        assert seconds == minutes * 60 + seconds % 60;
        assert minutes == (minutes / 60) * 60 + minutes % 60;
      }
    }
  }

  /** `formatDurationHours`: the compact form "Xh Ym", "Xh", "Ym Zs", "Ym" or "Zs". */
  function FormatDurationHours(ms: int): (r: string)
    ensures |r| >= 2 && r[|r| - 1] in "hms"
    ensures ms < 60 * MsPerSecond ==> r[|r| - 1] == 's'
    ensures ms >= 3600 * MsPerSecond ==> r[|r| - 1] in "hm"
  {
    if ms <= 0 then "0s"
    else
      var totalSeconds := ms / MsPerSecond;
      CompactText(totalSeconds / 3600, (totalSeconds % 3600) / 60, totalSeconds % 60)
  }

  /** The text `formatDurationHours` shows for whole hours, minutes of the hour and seconds of the minute. */
  function CompactText(hours: nat, minutes: nat, seconds: nat): string
  {
    if hours > 0 then
      if minutes > 0 then NatToString(hours) + "h " + NatToString(minutes) + "m"
      else NatToString(hours) + "h"
    else if minutes > 0 then
      if seconds > 0 then NatToString(minutes) + "m " + NatToString(seconds) + "s"
      else NatToString(minutes) + "m"
    else NatToString(seconds) + "s"
  }

  function UnitSeconds(c: char): Option<nat>
  {
    if c == 'h' then Some(3600) else if c == 'm' then Some(60) else if c == 's' then Some(1) else None
  }

  /**
   * Splits a compact display into its groups "<digits><unit>", separated by
   * single spaces, the unit being h, m or s.
   */
  function CompactGroups(s: string): (r: Option<seq<(string, char)>>)
    ensures r.Some? ==> r.value != []
    decreases |s|
  {
    var (d, t) := TakeDigits(s);
    if d == [] || t == [] || UnitSeconds(t[0]).None? then None
    else if |t| == 1 then Some([(d, t[0])])
    else if t[1] != ' ' then None
    else match CompactGroups(t[2..])
      case None => None
      case Some(gs) => Some([(d, t[0])] + gs)
  }

  function GroupSeconds(g: (string, char)): nat
  {
    if AllDigits(g.0) && UnitSeconds(g.1).Some? then DigitsValue(g.0) * UnitSeconds(g.1).value else 0
  }

  function GroupsSeconds(gs: seq<(string, char)>): nat
  {
    if gs == [] then 0 else GroupSeconds(gs[0]) + GroupsSeconds(gs[1..])
  }

  /** Reads a compact display back as a number of seconds. */
  function ParseCompact(s: string): Option<nat>
  {
    match CompactGroups(s)
    case None => None
    case Some(gs) => Some(GroupsSeconds(gs))
  }

  lemma GroupThenMore(s: string, D: string, t: string, gs: seq<(string, char)>)
    requires TakeDigits(s) == (D, t) && D != []
    requires |t| >= 2 && UnitSeconds(t[0]).Some? && t[1] == ' '
    requires CompactGroups(t[2..]) == Some(gs)
    ensures CompactGroups(s) == Some([(D, t[0])] + gs)
  {
  }

  lemma OneGroup(D: string, u: char)
    requires D != [] && AllDigits(D) && UnitSeconds(u).Some?
    ensures CompactGroups(D + [u]) == Some([(D, u)])
  {
    TakeDigitsOf(D, [u]);
  }

  lemma TwoGroups(D: string, u: char, D': string, u': char)
    requires D != [] && AllDigits(D) && UnitSeconds(u).Some?
    requires D' != [] && AllDigits(D') && UnitSeconds(u').Some?
    ensures CompactGroups(D + [u, ' '] + D' + [u']) == Some([(D, u), (D', u')])
  {
    var t := [u, ' '] + D' + [u'];
    assert D + [u, ' '] + D' + [u'] == D + t;
    assert TakeDigits(D + t) == (D, t) by { TakeDigitsOf(D, t); }
    assert CompactGroups(t[2..]) == Some([(D', u')]) by {
      assert t[2..] == D' + [u'];
      OneGroup(D', u');
    }
    GroupThenMore(D + t, D, t, [(D', u')]);
    assert [(D, t[0])] + [(D', u')] == [(D, u), (D', u')];
  }

  lemma GroupOf(n: nat, u: char)
    requires UnitSeconds(u).Some?
    ensures GroupSeconds((NatToString(n), u)) == n * UnitSeconds(u).value
  {
    NatToStringValue(n);
  }

  lemma PairSeconds(g: (string, char), g': (string, char))
    ensures GroupsSeconds([g, g']) == GroupSeconds(g) + GroupSeconds(g')
  {
    assert [g, g'][1..] == [g'];
    assert [g'][1..] == [];
    assert GroupsSeconds([g']) == GroupSeconds(g');
  }

  lemma ValueOf(s: string, gs: seq<(string, char)>, v: nat)
    requires CompactGroups(s) == Some(gs) && GroupsSeconds(gs) == v
    ensures ParseCompact(s) == Some(v)
  {
  }

  /** The compact form of `n` units, e.g. "5m". */
  lemma ReadOne(text: string, n: nat, u: char, v: int)
    requires UnitSeconds(u).Some?
    requires text == NatToString(n) + [u]
    requires v == n * UnitSeconds(u).value
    ensures ParseCompact(text) == Some(v)
  {
    var g := (NatToString(n), u);
    assert CompactGroups(text) == Some([g]) by { OneGroup(NatToString(n), u); }
    assert GroupsSeconds([g]) == v by { GroupOf(n, u); }
    ValueOf(text, [g], v);
  }

  /** The compact form of `n` units then `n'` units, e.g. "2h 5m". */
  lemma ReadTwo(text: string, n: nat, u: char, n': nat, u': char, v: int)
    requires UnitSeconds(u).Some? && UnitSeconds(u').Some?
    requires text == NatToString(n) + [u, ' '] + NatToString(n') + [u']
    requires v == n * UnitSeconds(u).value + n' * UnitSeconds(u').value
    ensures ParseCompact(text) == Some(v)
  {
    var g, g' := (NatToString(n), u), (NatToString(n'), u');
    assert CompactGroups(text) == Some([g, g']) by { TwoGroups(NatToString(n), u, NatToString(n'), u'); }
    assert GroupsSeconds([g, g']) == v by {
      GroupOf(n, u);
      GroupOf(n', u');
      PairSeconds(g, g');
    }
    ValueOf(text, [g, g'], v);
  }

  /**
   * What the compact form shows, in seconds: every whole second below one
   * hour; from one hour on the seconds are dropped and the whole minutes
   * shown.
   */
  function CompactShown(ms: int): nat
  {
    if ms <= 0 then 0
    else
      var totalSeconds := ms / MsPerSecond;
      if totalSeconds >= 3600 then totalSeconds - totalSeconds % 60 else totalSeconds
  }

  /** Hours, minutes of the hour and seconds of the minute add back up to the seconds count. */
  lemma SplitSeconds(total: nat)
    ensures total == (total / 3600) * 3600 + ((total % 3600) / 60) * 60 + total % 60
    ensures total % 60 == (total % 3600) % 60
  {
    var q, r := total / 3600, total % 3600;
    var m, sec := r / 60, r % 60;
    assert total == q * 3600 + r;
    assert r == m * 60 + sec && 0 <= sec < 60;
    assert total == (q * 60 + m) * 60 + sec;
    RemainderOf(total, q * 60 + m, sec);
  }

  /** Writing `n` as a multiple of 60 plus a remainder below 60 determines `n % 60`. */
  lemma RemainderOf(n: int, k: int, sec: int)
    requires n == k * 60 + sec && 0 <= sec < 60
    ensures n % 60 == sec
  {
  }

  lemma ShownParts(ms: int)
    requires ms > 0
    ensures var total := ms / MsPerSecond;
      var hours, minutes, seconds := total / 3600, (total % 3600) / 60, total % 60;
      CompactShown(ms) == if hours > 0 then hours * 3600 + minutes * 60 else minutes * 60 + seconds
  {
    SplitSeconds(ms / MsPerSecond);
  }

  /** The compact text reads back as the hours and minutes shown, or as the minutes and seconds below one hour. */
  lemma CompactTextReadsBack(hours: nat, minutes: nat, seconds: nat)
    ensures ParseCompact(CompactText(hours, minutes, seconds))
      == Some(if hours > 0 then hours * 3600 + minutes * 60 else minutes * 60 + seconds)
  {
    var text := CompactText(hours, minutes, seconds);
    if hours > 0 && minutes > 0 {
      assert text == NatToString(hours) + ['h', ' '] + NatToString(minutes) + ['m'];
      ReadTwo(text, hours, 'h', minutes, 'm', hours * 3600 + minutes * 60);
    } else if hours > 0 {
      assert text == NatToString(hours) + ['h'];
      ReadOne(text, hours, 'h', hours * 3600 + minutes * 60);
    } else if minutes > 0 && seconds > 0 {
      assert text == NatToString(minutes) + ['m', ' '] + NatToString(seconds) + ['s'];
      ReadTwo(text, minutes, 'm', seconds, 's', minutes * 60 + seconds);
    } else if minutes > 0 {
      assert text == NatToString(minutes) + ['m'];
      ReadOne(text, minutes, 'm', minutes * 60 + seconds);
    } else {
      assert text == NatToString(seconds) + ['s'];
      ReadOne(text, seconds, 's', minutes * 60 + seconds);
    }
  }

  /**
   * Reading the compact display back gives every whole second below one
   * hour, and from one hour on the whole minutes; "0s" for a zero or
   * negative count.
   */
  lemma FormatDurationHoursReadsBack(ms: int)
    ensures ParseCompact(FormatDurationHours(ms)) == Some(CompactShown(ms))
  {
    if ms <= 0 {
      ReadOne(FormatDurationHours(ms), 0, 's', 0);
    } else {
      var totalSeconds := ms / MsPerSecond;
      var hours, minutes, seconds := totalSeconds / 3600, (totalSeconds % 3600) / 60, totalSeconds % 60;
      assert FormatDurationHours(ms) == CompactText(hours, minutes, seconds);
      assert CompactShown(ms) == if hours > 0 then hours * 3600 + minutes * 60 else minutes * 60 + seconds by {
        ShownParts(ms);
      }
      CompactTextReadsBack(hours, minutes, seconds);
    }
  }

  // ---------------------------------------------------------------------------
  // Which spelling the compact display picks

  /** Units in display order, none skipped: hours then minutes, or minutes then seconds. */
  predicate NextUnit(u: char, u': char)
  {
    (u == 'h' && u' == 'm') || (u == 'm' && u' == 's')
  }

  /** The number a group shows. */
  function Count(g: (string, char)): nat
  {
    if AllDigits(g.0) then DigitsValue(g.0) else 0
  }

  /** One group as the display spells it: a unit, the number in plain decimal, minutes and seconds below 60. */
  predicate PlainGroup(g: (string, char))
  {
    && UnitSeconds(g.1).Some?
    && AllDigits(g.0) && g.0 == NatToString(DigitsValue(g.0))
    && (g.1 != 'h' ==> Count(g) < 60)
  }

  /**
   * The spelling rules of the compact display: one group, or two groups in
   * adjacent units; every number in plain decimal (no leading zeros);
   * minutes and seconds below 60 wherever they appear; and no zero group,
   * except that zero is spelled "0s".
   */
  predicate Canonical(gs: seq<(string, char)>)
  {
    || (|gs| == 1 && PlainGroup(gs[0]) && (Count(gs[0]) > 0 || gs[0] == ("0", 's')))
    || (|gs| == 2 && NextUnit(gs[0].1, gs[1].1) && PlainGroup(gs[0]) && PlainGroup(gs[1])
        && Count(gs[0]) > 0 && Count(gs[1]) > 0)
  }

  lemma PlainGroupOf(n: nat, u: char)
    requires UnitSeconds(u).Some? && (u != 'h' ==> n < 60)
    ensures PlainGroup((NatToString(n), u)) && Count((NatToString(n), u)) == n
  {
    NatToStringValue(n);
  }

  lemma CanonicalOne(n: nat, u: char)
    requires UnitSeconds(u).Some? && (u != 'h' ==> n < 60) && (n > 0 || u == 's')
    ensures Canonical([(NatToString(n), u)])
  {
    PlainGroupOf(n, u);
    if n == 0 {
      assert NatToString(0) == "0";
    }
  }

  lemma CanonicalTwo(n: nat, u: char, n': nat, u': char)
    requires NextUnit(u, u') && 0 < n && 0 < n' < 60 && (u != 'h' ==> n < 60)
    ensures Canonical([(NatToString(n), u), (NatToString(n'), u')])
  {
    PlainGroupOf(n, u);
    PlainGroupOf(n', u');
  }

  /** Each of the five shapes is spelled canonically when minutes and seconds are below 60. */
  lemma CompactTextCanonical(hours: nat, minutes: nat, seconds: nat)
    requires minutes < 60 && seconds < 60
    ensures CompactGroups(CompactText(hours, minutes, seconds)).Some?
    ensures Canonical(CompactGroups(CompactText(hours, minutes, seconds)).value)
  {
    var text := CompactText(hours, minutes, seconds);
    if hours > 0 && minutes > 0 {
      assert text == NatToString(hours) + ['h', ' '] + NatToString(minutes) + ['m'];
      TwoGroups(NatToString(hours), 'h', NatToString(minutes), 'm');
      CanonicalTwo(hours, 'h', minutes, 'm');
    } else if hours > 0 {
      assert text == NatToString(hours) + ['h'];
      OneGroup(NatToString(hours), 'h');
      CanonicalOne(hours, 'h');
    } else if minutes > 0 && seconds > 0 {
      assert text == NatToString(minutes) + ['m', ' '] + NatToString(seconds) + ['s'];
      TwoGroups(NatToString(minutes), 'm', NatToString(seconds), 's');
      CanonicalTwo(minutes, 'm', seconds, 's');
    } else if minutes > 0 {
      assert text == NatToString(minutes) + ['m'];
      OneGroup(NatToString(minutes), 'm');
      CanonicalOne(minutes, 'm');
    } else {
      assert text == NatToString(seconds) + ['s'];
      OneGroup(NatToString(seconds), 's');
      CanonicalOne(seconds, 's');
    }
  }

  /** The compact display always follows the spelling rules. */
  lemma FormatDurationHoursCanonical(ms: int)
    ensures CompactGroups(FormatDurationHours(ms)).Some?
    ensures Canonical(CompactGroups(FormatDurationHours(ms)).value)
  {
    if ms <= 0 {
      assert FormatDurationHours(ms) == CompactText(0, 0, 0);
      CompactTextCanonical(0, 0, 0);
    } else {
      var total := ms / MsPerSecond;
      assert FormatDurationHours(ms) == CompactText(total / 3600, (total % 3600) / 60, total % 60);
      CompactTextCanonical(total / 3600, (total % 3600) / 60, total % 60);
    }
  }

  /** The hours, minutes and seconds a canonical spelling shows. */
  function Parts(gs: seq<(string, char)>): (nat, nat, nat)
    requires |gs| == 1 || |gs| == 2
  {
    var c := Count(gs[0]);
    if |gs| == 1 then
      if gs[0].1 == 'h' then (c, 0, 0) else if gs[0].1 == 'm' then (0, c, 0) else (0, 0, c)
    else if gs[0].1 == 'h' then (c, Count(gs[1]), 0)
    else (0, c, Count(gs[1]))
  }

  /** The canonical spelling of hours, minutes and seconds. */
  function Spell(h: nat, m: nat, s: nat): seq<(string, char)>
  {
    var gs := (if h > 0 then [(NatToString(h), 'h')] else [])
      + (if m > 0 then [(NatToString(m), 'm')] else [])
      + (if s > 0 then [(NatToString(s), 's')] else []);
    if gs == [] then [("0", 's')] else gs
  }

  /** A canonical spelling is the spelling of its parts, and its value is theirs. */
  lemma CanonicalParts(gs: seq<(string, char)>)
    requires Canonical(gs)
    ensures var (h, m, s) := Parts(gs);
      gs == Spell(h, m, s) && m < 60 && s < 60 && GroupsSeconds(gs) == h * 3600 + m * 60 + s
  {
    if |gs| == 1 {
      OnePart(gs);
    } else {
      TwoParts(gs);
    }
  }

  lemma OnePart(gs: seq<(string, char)>)
    requires |gs| == 1 && Canonical(gs)
    ensures var (h, m, s) := Parts(gs);
      gs == Spell(h, m, s) && m < 60 && s < 60 && GroupsSeconds(gs) == h * 3600 + m * 60 + s
  {
    var g := gs[0];
    var c := Count(g);
    assert gs == [(NatToString(c), g.1)] by {
      if c == 0 {
        assert NatToString(0) == "0";
      }
    }
    OnePartOf(c, g.1);
  }

  lemma OnePartOf(c: nat, u: char)
    requires UnitSeconds(u).Some? && (u != 'h' ==> c < 60) && (c > 0 || u == 's')
    ensures var gs := [(NatToString(c), u)];
      var (h, m, s) := Parts(gs);
      gs == Spell(h, m, s) && m < 60 && s < 60 && GroupsSeconds(gs) == h * 3600 + m * 60 + s
  {
    var gs := [(NatToString(c), u)];
    PlainGroupOf(c, u);
    GroupOf(c, u);
    assert GroupsSeconds(gs) == GroupSeconds(gs[0]) by {
      assert gs[1..] == [];
    }
    if c == 0 {
      assert NatToString(0) == "0";
      assert Spell(0, 0, 0) == gs;
    } else if u == 'h' {
      assert Parts(gs) == (c, 0, 0);
      assert Spell(c, 0, 0) == gs;
    } else if u == 'm' {
      assert Parts(gs) == (0, c, 0);
      assert Spell(0, c, 0) == gs;
    } else {
      assert Parts(gs) == (0, 0, c);
      assert Spell(0, 0, c) == gs;
    }
  }

  lemma TwoParts(gs: seq<(string, char)>)
    requires |gs| == 2 && Canonical(gs)
    ensures var (h, m, s) := Parts(gs);
      gs == Spell(h, m, s) && m < 60 && s < 60 && GroupsSeconds(gs) == h * 3600 + m * 60 + s
  {
    var g, g' := gs[0], gs[1];
    assert g == (NatToString(Count(g)), g.1);
    assert g' == (NatToString(Count(g')), g'.1);
    assert gs == [g, g'];
    PairSeconds(g, g');
  }

  /** Hours, minutes below 60 and seconds below 60 are determined by their total. */
  lemma SplitUnique(h: nat, m: nat, s: nat, h': nat, m': nat, s': nat)
    requires m < 60 && s < 60 && m' < 60 && s' < 60
    requires h * 3600 + m * 60 + s == h' * 3600 + m' * 60 + s'
    ensures h == h' && m == m' && s == s'
  {
    var v := h * 3600 + m * 60 + s;
    RemainderOf(v, h * 60 + m, s);
    RemainderOf(v, h' * 60 + m', s');
    assert h * 60 + m == h' * 60 + m';
    RemainderOf(h * 60 + m, h, m);
    RemainderOf(h' * 60 + m', h', m');
  }

  /** Two canonical spellings of the same number of seconds are the same spelling. */
  lemma CanonicalUnique(gs: seq<(string, char)>, gs': seq<(string, char)>)
    requires Canonical(gs) && Canonical(gs') && GroupsSeconds(gs) == GroupsSeconds(gs')
    ensures gs == gs'
  {
    CanonicalParts(gs);
    CanonicalParts(gs');
    var (h, m, s) := Parts(gs);
    var (h', m', s') := Parts(gs');
    SplitUnique(h, m, s, h', m', s');
  }

  /** The groups determine the text: the reader reads each spelling one way only. */
  lemma {:induction false} CompactGroupsInjective(s: string, s': string)
    requires CompactGroups(s).Some? && CompactGroups(s) == CompactGroups(s')
    ensures s == s'
    decreases |s|
  {
    var (d, t) := TakeDigits(s);
    var (d', t') := TakeDigits(s');
    var gs := CompactGroups(s).value;
    assert gs[0] == (d, t[0]) && gs[0] == (d', t'[0]);
    if |t| == 1 {
      assert |t'| == 1;
      assert t == [t[0]] && t' == [t'[0]];
    } else {
      assert |t'| != 1;
      assert CompactGroups(t[2..]) == Some(gs[1..]) && CompactGroups(t'[2..]) == Some(gs[1..]);
      CompactGroupsInjective(t[2..], t'[2..]);
      assert t == t[..2] + t[2..] && t' == t'[..2] + t'[2..];
      assert t[..2] == [t[0], ' '] && t'[..2] == [t'[0], ' '];
    }
  }

  /**
   * The compact display is the only text that follows the spelling rules
   * and reads back as the value it shows.
   */
  lemma FormatDurationHoursUnique(ms: int, s: string)
    requires CompactGroups(s).Some? && Canonical(CompactGroups(s).value)
    requires ParseCompact(s) == Some(CompactShown(ms))
    ensures s == FormatDurationHours(ms)
  {
    var text := FormatDurationHours(ms);
    FormatDurationHoursCanonical(ms);
    FormatDurationHoursReadsBack(ms);
    CanonicalUnique(CompactGroups(s).value, CompactGroups(text).value);
    CompactGroupsInjective(s, text);
  }
}

=== FILE: focusvault.dfy ===
/**
 * The signed-in user's data and the focus timer of the tracker (script.js):
 * projects ("missions"), logged time entries, the start / pause / resume /
 * stop state machine, the recent-entries list and the dashboard totals.
 *
 * Instants are integer milliseconds since the epoch, passed in by the caller
 * wherever the source reads the clock; generated ids are passed in the same
 * way. The browser's local time zone is the fixed offset `tz` of Calendar.
 */
module FocusVault {
  import opened Wrappers
  import opened Text
  import opened Calendar
  import opened Sequences
  import Durations

  datatype Project = Project(id: string, name: string, description: string, color: string,
                             createdAt: int, totalTime: int)

  /** A logged session; `day` is the local day of the stop, which the source stores as a date string. */
  datatype TimeEntry = TimeEntry(id: string, projectId: string, projectName: string, task: string,
                                 startTime: int, endTime: int, duration: int, day: int, createdAt: int)

  datatype Session = Session(projectId: string, projectName: string, task: string, startTime: int)

  /** What is persisted for a user: the two lists of the `currentUser` record. */
  datatype UserRecord = UserRecord(projects: seq<Project>, timeEntries: seq<TimeEntry>)

  datatype Refusal = NoProjectSelected | ProjectNotFound | EmptyProjectName

  datatype Outcome = Done | Refused(reason: Refusal)

  /** The four dashboard figures. */
  datatype Summary = Summary(todayTime: int, weekTime: int, totalProjects: nat, totalTime: int)

  // ---------------------------------------------------------------------------
  // Projects

  /** `projects.find(p => p.id === id)`, as the index of the first match. */
  function FindProject(ps: seq<Project>, id: string): (r: Option<nat>)
    ensures r.Some? ==> r.value < |ps| && ps[r.value].id == id
    ensures r.Some? ==> forall j :: 0 <= j < r.value ==> ps[j].id != id
    ensures r.None? ==> forall j :: 0 <= j < |ps| ==> ps[j].id != id
  {
    if ps == [] then None
    else if ps[0].id == id then Some(0)
    else match FindProject(ps[1..], id)
      case None => None
      case Some(i) => Some(i + 1)
  }

  predicate HasProject(ps: seq<Project>, id: string)
  {
    exists j :: 0 <= j < |ps| && ps[j].id == id
  }

  predicate UniqueIds(ps: seq<Project>)
  {
    forall i, j :: 0 <= i < j < |ps| ==> ps[i].id != ps[j].id
  }

  function SumTotals(ps: seq<Project>): int
  {
    if ps == [] then 0 else SumTotals(ps[..|ps| - 1]) + ps[|ps| - 1].totalTime
  }

  /** Adds `d` to the total of the first project with id `id`, if there is one. */
  function Credit(ps: seq<Project>, id: string, d: int): (r: seq<Project>)
    ensures |r| == |ps|
  {
    match FindProject(ps, id)
    case None => ps
    case Some(i) => ps[i := ps[i].(totalTime := ps[i].totalTime + d)]
  }

  /** Crediting changes only the total of the first project with the id, by exactly `d`. */
  lemma CreditChangesOneTotal(ps: seq<Project>, id: string, d: int)
    ensures var r := Credit(ps, id, d);
      && (forall i :: 0 <= i < |ps| ==> r[i] == ps[i].(totalTime := r[i].totalTime))
      && (forall i :: 0 <= i < |ps| && ps[i].id != id ==> r[i] == ps[i])
      && (forall i :: 0 <= i < |ps| && FindProject(ps, id) != Some(i) ==> r[i] == ps[i])
      && (forall i :: 0 <= i < |ps| && FindProject(ps, id) == Some(i) ==> r[i].totalTime == ps[i].totalTime + d)
  {
    var f := FindProject(ps, id);
    if f.Some? {
      var i := f.value;
      assert Credit(ps, id, d) == ps[i := ps[i].(totalTime := ps[i].totalTime + d)];
    } else {
      assert Credit(ps, id, d) == ps;
    }
  }

  /** The sum of the totals grows by `d` exactly when a project has the id. */
  lemma CreditSum(ps: seq<Project>, id: string, d: int)
    ensures SumTotals(Credit(ps, id, d)) == SumTotals(ps) + (if HasProject(ps, id) then d else 0)
  {
    var f := FindProject(ps, id);
    if f.Some? {
      SumTotalsUpdate(ps, f.value, d);
      assert HasProject(ps, id);
    }
  }

  lemma {:induction false} SumTotalsUpdate(ps: seq<Project>, i: nat, d: int)
    requires i < |ps|
    ensures SumTotals(ps[i := ps[i].(totalTime := ps[i].totalTime + d)]) == SumTotals(ps) + d
  {
    var r := ps[i := ps[i].(totalTime := ps[i].totalTime + d)];
    var n := |ps| - 1;
    if i < n {
      assert r[..n] == ps[..n][i := ps[i].(totalTime := ps[i].totalTime + d)];
      SumTotalsUpdate(ps[..n], i, d);
    } else {
      assert r[..n] == ps[..n];
    }
  }

  function NotProject(id: string): Project -> bool
  {
    (p: Project) => p.id != id
  }

  /** The entries logged to project `id`. */
  function LoggedTo(id: string): TimeEntry -> bool
  {
    (e: TimeEntry) => e.projectId == id
  }

  function NotLoggedTo(id: string): TimeEntry -> bool
  {
    (e: TimeEntry) => e.projectId != id
  }

  // ---------------------------------------------------------------------------
  // Sums of durations

  /** `entries.reduce((total, e) => total + e.duration, 0)`. */
  function SumDurations(es: seq<TimeEntry>): int
  {
    if es == [] then 0 else SumDurations(es[..|es| - 1]) + es[|es| - 1].duration
  }

  /** The time logged to project `id`. */
  function OwnTime(es: seq<TimeEntry>, id: string): int
  {
    SumDurations(Keep(es, LoggedTo(id)))
  }

  predicate NonNegative(es: seq<TimeEntry>)
  {
    forall i :: 0 <= i < |es| ==> es[i].duration >= 0
  }

  lemma {:induction false} SumAppendOne(es: seq<TimeEntry>, e: TimeEntry, p: TimeEntry -> bool)
    ensures SumDurations(Keep(es + [e], p)) == SumDurations(Keep(es, p)) + (if p(e) then e.duration else 0)
  {
    var k := Keep(es, p);
    KeepAppendOne(es, e, p);
    if p(e) {
      assert (k + [e])[..|k|] == k;
    } else {
      assert k + [] == k;
    }
  }

  /** Every entry is counted either for project `id` or among the others. */
  lemma {:induction false} OwnTimeSplit(es: seq<TimeEntry>, id: string)
    ensures OwnTime(es, id) + SumDurations(Keep(es, NotLoggedTo(id))) == SumDurations(es)
  {
    if es != [] {
      var init, e := es[..|es| - 1], es[|es| - 1];
      assert es == init + [e];
      OwnTimeSplit(init, id);
      SumAppendOne(init, e, LoggedTo(id));
      SumAppendOne(init, e, NotLoggedTo(id));
    }
  }

  /** Removing project `id`'s entries leaves every other project's time alone. */
  lemma {:induction false} OwnTimeWithout(es: seq<TimeEntry>, id: string, other: string)
    requires other != id
    ensures OwnTime(Keep(es, NotLoggedTo(id)), other) == OwnTime(es, other)
  {
    if es != [] {
      var init, e := es[..|es| - 1], es[|es| - 1];
      assert es == init + [e];
      var k := Keep(init, NotLoggedTo(id));
      var own := if e.projectId == other then e.duration else 0;
      OwnTimeWithout(init, id, other);
      assert OwnTime(es, other) == OwnTime(init, other) + own by { SumAppendOne(init, e, LoggedTo(other)); }
      if e.projectId != id {
        assert Keep(es, NotLoggedTo(id)) == k + [e] by { KeepAppendOne(init, e, NotLoggedTo(id)); }
        assert OwnTime(k + [e], other) == OwnTime(k, other) + own by { SumAppendOne(k, e, LoggedTo(other)); }
      } else {
        assert Keep(es, NotLoggedTo(id)) == k by { KeepAppendOne(init, e, NotLoggedTo(id)); }
      }
    }
  }

  /** Over non-negative durations, keeping fewer entries never adds time. */
  lemma {:induction false} KeepSumMonotone(es: seq<TimeEntry>, p: TimeEntry -> bool, q: TimeEntry -> bool)
    requires NonNegative(es)
    requires forall i :: 0 <= i < |es| && p(es[i]) ==> q(es[i])
    ensures 0 <= SumDurations(Keep(es, p)) <= SumDurations(Keep(es, q))
  {
    if es != [] {
      var init, e := es[..|es| - 1], es[|es| - 1];
      assert es == init + [e];
      KeepSumMonotone(init, p, q);
      SumAppendOne(init, e, p);
      SumAppendOne(init, e, q);
    }
  }

  // ---------------------------------------------------------------------------
  // The ledger: each project's total is the time logged to it

  predicate Ledgered(ps: seq<Project>, es: seq<TimeEntry>)
  {
    forall i :: 0 <= i < |ps| ==> ps[i].totalTime == OwnTime(es, ps[i].id)
  }

  /** Every entry belongs to a project that still exists. */
  predicate Owned(ps: seq<Project>, es: seq<TimeEntry>)
  {
    forall i :: 0 <= i < |es| ==> HasProject(ps, es[i].projectId)
  }

  /** A new project with zero time and an unused id keeps the ledger. */
  lemma AddKeepsLedger(ps: seq<Project>, es: seq<TimeEntry>, p: Project)
    requires Ledgered(ps, es) && UniqueIds(ps) && Owned(ps, es)
    requires p.totalTime == 0 && !HasProject(ps, p.id)
    ensures Ledgered(ps + [p], es) && UniqueIds(ps + [p]) && Owned(ps + [p], es)
  {
    var ps' := ps + [p];
    forall i | 0 <= i < |ps'|
      ensures ps'[i].totalTime == OwnTime(es, ps'[i].id)
    {
      if i < |ps| {
        assert ps'[i] == ps[i];
      }
    }
    forall i | 0 <= i < |es|
      ensures HasProject(ps', es[i].projectId)
    {
      var j :| 0 <= j < |ps| && ps[j].id == es[i].projectId;
      assert ps'[j].id == es[i].projectId;
    }
    forall i, j | 0 <= i < j < |ps'|
      ensures ps'[i].id != ps'[j].id
    {
      if j == |ps| {
        assert ps'[i] == ps[i];
      }
    }
  }

  /** Stopping a session logs `e` and credits its project: the ledger still holds. */
  lemma StopKeepsLedger(ps: seq<Project>, es: seq<TimeEntry>, e: TimeEntry)
    requires Ledgered(ps, es) && UniqueIds(ps)
    ensures Ledgered(Credit(ps, e.projectId, e.duration), es + [e])
    ensures UniqueIds(Credit(ps, e.projectId, e.duration))
  {
    var r := Credit(ps, e.projectId, e.duration);
    CreditChangesOneTotal(ps, e.projectId, e.duration);
    forall i | 0 <= i < |r|
      ensures r[i].totalTime == OwnTime(es + [e], r[i].id)
    {
      var grown := if e.projectId == ps[i].id then e.duration else 0;
      assert OwnTime(es + [e], ps[i].id) == OwnTime(es, ps[i].id) + grown by {
        SumAppendOne(es, e, LoggedTo(ps[i].id));
      }
      if ps[i].id == e.projectId {
        assert FindProject(ps, e.projectId) == Some(i);
      }
    }
  }

  /** After a stop the entries still all belong to projects exactly when the session's project still exists. */
  lemma StopKeepsOwnership(ps: seq<Project>, es: seq<TimeEntry>, e: TimeEntry)
    requires Owned(ps, es)
    ensures Owned(Credit(ps, e.projectId, e.duration), es + [e]) <==> HasProject(ps, e.projectId)
  {
    var r := Credit(ps, e.projectId, e.duration);
    CreditChangesOneTotal(ps, e.projectId, e.duration);
    forall id | HasProject(ps, id)
      ensures HasProject(r, id)
    {
      var j :| 0 <= j < |ps| && ps[j].id == id;
      assert r[j].id == id;
    }
    if HasProject(r, e.projectId) {
      var j :| 0 <= j < |r| && r[j].id == e.projectId;
      assert ps[j].id == e.projectId;
    }
    assert (es + [e])[|es|] == e;
  }

  /** Deleting a project together with its entries keeps the ledger, for the projects that remain. */
  lemma DeleteKeepsLedger(ps: seq<Project>, es: seq<TimeEntry>, id: string)
    requires Ledgered(ps, es) && UniqueIds(ps) && Owned(ps, es)
    ensures Ledgered(Keep(ps, NotProject(id)), Keep(es, NotLoggedTo(id)))
    ensures UniqueIds(Keep(ps, NotProject(id)))
    ensures Owned(Keep(ps, NotProject(id)), Keep(es, NotLoggedTo(id)))
  {
    var ps', es' := Keep(ps, NotProject(id)), Keep(es, NotLoggedTo(id));
    KeepIndices(ps, NotProject(id));
    forall i | 0 <= i < |ps'|
      ensures ps'[i].totalTime == OwnTime(es', ps'[i].id)
    {
      assert ps'[i] in ps;
      OwnTimeWithout(es, id, ps'[i].id);
    }
    forall i | 0 <= i < |es'|
      ensures HasProject(ps', es'[i].projectId)
    {
      assert es'[i] in es;
      var k :| 0 <= k < |es| && es[k] == es'[i];
      var j :| 0 <= j < |ps| && ps[j].id == es[k].projectId;
      assert ps[j] in ps';
    }
  }

  /** Deleting an id no project carries changes neither list, provided every entry has its project. */
  lemma DeleteUnknownChangesNothing(ps: seq<Project>, es: seq<TimeEntry>, id: string)
    requires Owned(ps, es) && !HasProject(ps, id)
    ensures Keep(ps, NotProject(id)) == ps
    ensures Keep(es, NotLoggedTo(id)) == es
  {
    forall i | 0 <= i < |es|
      ensures es[i].projectId != id
    {
      assert HasProject(ps, es[i].projectId);
    }
  }

  /** Filtering keeps elements in their relative order, so distinct positions stay distinct. */
  lemma {:induction false} KeepIndices(ps: seq<Project>, p: Project -> bool)
    requires UniqueIds(ps)
    ensures UniqueIds(Keep(ps, p))
  {
    if ps != [] {
      var init, last := ps[..|ps| - 1], ps[|ps| - 1];
      assert ps == init + [last];
      KeepIndices(init, p);
      var k := Keep(init, p);
      assert Keep(ps, p) == k + (if p(last) then [last] else []) by { KeepAppendOne(init, last, p); }
      forall i | 0 <= i < |k|
        ensures k[i].id != last.id
      {
        assert k[i] in init;
      }
    }
  }

  /** Dropping the last project together with its entries keeps the ledger for the others. */
  lemma LedgerWithoutLast(ps: seq<Project>, es: seq<TimeEntry>)
    requires ps != []
    requires Ledgered(ps, es) && UniqueIds(ps) && Owned(ps, es)
    ensures var init, es' := ps[..|ps| - 1], Keep(es, NotLoggedTo(ps[|ps| - 1].id));
      Ledgered(init, es') && UniqueIds(init) && Owned(init, es')
  {
    TotalsWithoutLast(ps, es);
    OwnedWithoutLast(ps, es);
  }

  lemma TotalsWithoutLast(ps: seq<Project>, es: seq<TimeEntry>)
    requires ps != [] && Ledgered(ps, es) && UniqueIds(ps)
    ensures Ledgered(ps[..|ps| - 1], Keep(es, NotLoggedTo(ps[|ps| - 1].id)))
  {
    var init, p := ps[..|ps| - 1], ps[|ps| - 1];
    var es' := Keep(es, NotLoggedTo(p.id));
    forall i | 0 <= i < |init|
      ensures init[i].totalTime == OwnTime(es', init[i].id)
    {
      assert ps[i] == init[i];
      OwnTimeWithout(es, p.id, init[i].id);
    }
  }

  lemma OwnedWithoutLast(ps: seq<Project>, es: seq<TimeEntry>)
    requires ps != [] && Owned(ps, es)
    ensures Owned(ps[..|ps| - 1], Keep(es, NotLoggedTo(ps[|ps| - 1].id)))
  {
    var init, p := ps[..|ps| - 1], ps[|ps| - 1];
    var es' := Keep(es, NotLoggedTo(p.id));
    forall i | 0 <= i < |es'|
      ensures HasProject(init, es'[i].projectId)
    {
      var e := es'[i];
      assert e in es && NotLoggedTo(p.id)(e);
      var k :| 0 <= k < |es| && es[k] == e;
      assert HasProject(ps, e.projectId);
      var j :| 0 <= j < |ps| && ps[j].id == e.projectId;
      assert j != |ps| - 1;
      assert init[j] == ps[j];
    }
  }

  /** With the ledger kept and no orphan entries, the total logged time is the sum of the project totals. */
  lemma {:induction false} TotalMatchesProjects(ps: seq<Project>, es: seq<TimeEntry>)
    requires Ledgered(ps, es) && UniqueIds(ps) && Owned(ps, es)
    ensures SumDurations(es) == SumTotals(ps)
  {
    if ps == [] {
      if es != [] {
        assert false;
      }
    } else {
      var init, p := ps[..|ps| - 1], ps[|ps| - 1];
      OwnTimeSplit(es, p.id);
      LedgerWithoutLast(ps, es);
      TotalMatchesProjects(init, Keep(es, NotLoggedTo(p.id)));
    }
  }

  // ---------------------------------------------------------------------------
  // Recent entries and the dashboard

  function StartOf(e: TimeEntry): int { e.startTime }

  const RecentCount: nat := 10

  /** The entries list: the ten latest-starting entries, latest first. */
  function Recent(es: seq<TimeEntry>): seq<TimeEntry>
  {
    var sorted := Sort(es, StartOf, true);
    sorted[..if |sorted| < RecentCount then |sorted| else RecentCount]
  }

  lemma RecentIsLatest(es: seq<TimeEntry>)
    ensures |Recent(es)| == if |es| < RecentCount then |es| else RecentCount
    ensures Ordered(Recent(es), StartOf, true)
    ensures multiset(Recent(es)) <= multiset(es)
    ensures forall x, y :: x in multiset(es) - multiset(Recent(es)) && y in Recent(es) ==> x.startTime <= y.startTime
  {
    var sorted := Sort(es, StartOf, true);
    assert |sorted| == |es| by {
      assert |multiset(sorted)| == |multiset(es)|;
    }
    var n := if |sorted| < RecentCount then |sorted| else RecentCount;
    assert Recent(es) == sorted[..n];
    OrderedPrefix(sorted, StartOf, true, n);
    assert multiset(sorted) == multiset(es);
    forall x, y | x in multiset(es) - multiset(sorted[..n]) && y in sorted[..n]
      ensures x.startTime <= y.startTime
    {
      assert Precedes(StartOf, true, y, x);
    }
  }

  /** Whether an entry started on local day `d`. */
  function OnDay(d: int, tz: int): TimeEntry -> bool
  {
    (e: TimeEntry) => DayOf(e.startTime, tz) == d
  }

  /** Whether an entry started at or after `from`; there is no upper bound. */
  function StartsFrom(from: int): TimeEntry -> bool
  {
    (e: TimeEntry) => e.startTime >= from
  }

  /** `stats.updateAll`: today's time, this week's time, the number of projects and the total time. */
  function Dashboard(u: UserRecord, now: int, tz: int): Summary
  {
    var today := DayOf(now, tz);
    Summary(SumDurations(Keep(u.timeEntries, OnDay(today, tz))),
            SumDurations(Keep(u.timeEntries, StartsFrom(WeekStartOf(today, tz)))),
            |u.projects|,
            SumDurations(u.timeEntries))
  }

  lemma DashboardBounds(u: UserRecord, now: int, tz: int)
    requires NonNegative(u.timeEntries)
    ensures var s := Dashboard(u, now, tz);
      0 <= s.todayTime <= s.weekTime <= s.totalTime && s.totalProjects == |u.projects|
    ensures Ledgered(u.projects, u.timeEntries) && UniqueIds(u.projects) && Owned(u.projects, u.timeEntries) ==>
      Dashboard(u, now, tz).totalTime == SumTotals(u.projects)
  {
    var es, today := u.timeEntries, DayOf(now, tz);
    var week := WeekStartOf(today, tz);
    forall i | 0 <= i < |es| && OnDay(today, tz)(es[i])
      ensures StartsFrom(week)(es[i])
    {
      DayOfIff(es[i].startTime, today, tz);
      assert MidnightOf(today - Weekday(today), tz) <= MidnightOf(today, tz);
    }
    KeepSumMonotone(es, OnDay(today, tz), StartsFrom(week));
    KeepSumMonotone(es, StartsFrom(week), (e: TimeEntry) => true);
    if Ledgered(u.projects, es) && UniqueIds(u.projects) && Owned(u.projects, es) {
      TotalMatchesProjects(u.projects, es);
    }
  }

  // ---------------------------------------------------------------------------
  // The signed-in user and the timer

  /** The entry a stop at `now` logs for session `s` with running time `d`. */
  function LogEntry(s: Session, id: string, d: int, now: int, tz: int): TimeEntry
  {
    TimeEntry(id, s.projectId, s.projectName, s.task, s.startTime, now, d, DayOf(now, tz), now)
  }

  /** The sum of the lengths of closed running intervals. */
  function RunTime(runs: seq<(int, int)>): int
  {
    if runs == [] then 0 else RunTime(runs[..|runs| - 1]) + (runs[|runs| - 1].1 - runs[|runs| - 1].0)
  }

  class Tracker {
    const email: string
    /** The browser's local time-zone offset in milliseconds. */
    const tz: int
    var projects: seq<Project>
    var timeEntries: seq<TimeEntry>
    /** Whether `currentUser` is set and the main view is shown. */
    var signedIn: bool
    var startTime: Option<int>
    var elapsedTime: int
    var isRunning: bool
    var isPaused: bool
    var currentSession: Option<Session>
    /** The stored users map and the stored current user. */
    var savedUsers: map<string, UserRecord>
    var savedCurrent: Option<UserRecord>
    /** The running intervals of the current session closed by a pause, and the start of the open one. */
    ghost var runs: seq<(int, int)>
    ghost var runningSince: int

    ghost predicate Valid()
      reads this
    {
      && (isPaused ==> isRunning)
      && (isRunning <==> currentSession.Some?)
      && (isRunning <==> startTime.Some?)
      && (isRunning ==> startTime.value == currentSession.value.startTime)
      && (!isRunning ==> elapsedTime == 0 && runs == [])
      && (isPaused ==> elapsedTime == RunTime(runs))
      && (isRunning && !isPaused ==> currentSession.value.startTime == runningSince - RunTime(runs))
    }

    /** The running time of the current session at instant `t`: paused gaps do not count. */
    ghost function Accumulated(t: int): int
      reads this`runs, this`isRunning, this`isPaused, this`runningSince
    {
      RunTime(runs) + (if isRunning && !isPaused then t - runningSince else 0)
    }

    predicate Idle()
      reads this`isRunning, this`isPaused, this`startTime, this`currentSession, this`elapsedTime
    {
      !isRunning && !isPaused && startTime.None? && currentSession.None? && elapsedTime == 0
    }

    function Record(): UserRecord
      reads this`projects, this`timeEntries
    {
      UserRecord(projects, timeEntries)
    }

    /** The state after signing in as `email` with the stored record `user`. */
    constructor (email: string, tz: int, user: UserRecord, savedUsers: map<string, UserRecord>)
      ensures Valid() && Idle() && signedIn
      ensures this.email == email && this.tz == tz && Record() == user
      ensures this.savedUsers == savedUsers && savedCurrent == Some(user)
    {
      this.email := email;
      this.tz := tz;
      projects, timeEntries := user.projects, user.timeEntries;
      signedIn := true;
      startTime, elapsedTime, isRunning, isPaused, currentSession := None, 0, false, false, None;
      this.savedUsers := savedUsers;
      savedCurrent := Some(user);
      runs, runningSince := [], 0;
    }

    /** `timer.saveUserData`: writes the record under the user's email and as the current user. */
    method SaveUserData()
      modifies this`savedUsers, this`savedCurrent
      ensures savedUsers == old(savedUsers)[email := Record()]
      ensures savedCurrent == Some(Record())
    {
      savedUsers := savedUsers[email := Record()];
      savedCurrent := Some(Record());
    }

    /** `timer.start`: begins a session on the selected project with the trimmed task text. */
    method Start(selectedProjectId: string, taskInput: string, now: int) returns (r: Outcome)
      requires Valid()
      modifies this`startTime, this`isRunning, this`isPaused, this`elapsedTime, this`currentSession
      modifies this`runs, this`runningSince
      ensures Valid()
      ensures r.Done? <==> selectedProjectId != "" && HasProject(projects, selectedProjectId)
      ensures selectedProjectId == "" ==> r == Refused(NoProjectSelected)
      ensures selectedProjectId != "" && !HasProject(projects, selectedProjectId) ==> r == Refused(ProjectNotFound)
      ensures r.Refused? ==> unchanged(this)
      ensures r.Done? ==>
        && isRunning && !isPaused && elapsedTime == 0 && startTime == Some(now)
        && currentSession == Some(Session(selectedProjectId, projects[FindProject(projects, selectedProjectId).value].name,
                                          Trim(taskInput), now))
        && forall t :: Accumulated(t) == t - now
    {
      var task := Trim(taskInput);
      if selectedProjectId == "" {
        return Refused(NoProjectSelected);
      }
      var found := FindProject(projects, selectedProjectId);
      if found.None? {
        return Refused(ProjectNotFound);
      }
      var project := projects[found.value];
      startTime := Some(now);
      isRunning, isPaused := true, false;
      elapsedTime := 0;
      currentSession := Some(Session(selectedProjectId, project.name, task, now));
      runs, runningSince := [], now;
      r := Done;
    }

    /** `timer.pause`: freezes the elapsed time of a running session. */
    method Pause(now: int)
      requires Valid()
      modifies this`elapsedTime, this`isPaused, this`runs
      ensures Valid()
      ensures !(old(isRunning) && !old(isPaused)) ==> unchanged(this)
      ensures old(isRunning) && !old(isPaused) ==>
        && isPaused
        && elapsedTime == now - currentSession.value.startTime
        && elapsedTime == old(Accumulated(now))
        && forall t :: Accumulated(t) == elapsedTime
    {
      if !isRunning || isPaused {
        return;
      }
      elapsedTime := now - currentSession.value.startTime;
      runs := runs + [(runningSince, now)];
      isPaused := true;
    }

    /** `timer.resume`: moves the session's start so that the paused gap is not counted. */
    method Resume(now: int)
      requires Valid()
      modifies this`startTime, this`currentSession, this`isPaused, this`runningSince
      ensures Valid()
      ensures !(old(isRunning) && old(isPaused)) ==> unchanged(this)
      ensures old(isRunning) && old(isPaused) ==>
        && isRunning && !isPaused
        && currentSession == Some(old(currentSession).value.(startTime := now - old(elapsedTime)))
        && startTime == Some(now - old(elapsedTime))
        && forall t :: Accumulated(t) == old(elapsedTime) + (t - now)
    {
      if !isRunning || !isPaused {
        return;
      }
      var anchor := now - elapsedTime;
      startTime := Some(anchor);
      currentSession := Some(currentSession.value.(startTime := anchor));
      runningSince := now;
      isPaused := false;
    }

    /** `timer.reset`: back to idle; the user's data is untouched. */
    method Reset()
      modifies this`startTime, this`isRunning, this`isPaused, this`elapsedTime, this`currentSession, this`runs
      ensures Valid() && Idle()
    {
      isRunning, isPaused := false, false;
      startTime, currentSession := None, None;
      elapsedTime := 0;
      runs := [];
    }

    /**
     * `timer.stop`: logs the session with its running time, credits the
     * project, saves and resets. Returns the duration display and project
     * name of the completion notice.
     */
    method Stop(now: int, entryId: string) returns (notice: Option<(string, string)>)
      requires Valid()
      modifies this`timeEntries, this`projects, this`savedUsers, this`savedCurrent
      modifies this`startTime, this`isRunning, this`isPaused, this`elapsedTime, this`currentSession, this`runs
      ensures Valid()
      ensures !old(isRunning) ==> unchanged(this) && notice == None
      ensures old(isRunning) ==>
        old(Accumulated(now)) == (if old(isPaused) then old(elapsedTime) else now - old(currentSession).value.startTime)
      ensures old(isRunning) ==>
        timeEntries == old(timeEntries) + [LogEntry(old(currentSession).value, entryId, old(Accumulated(now)), now, tz)]
      ensures old(isRunning) ==>
        projects == Credit(old(projects), old(currentSession).value.projectId, old(Accumulated(now)))
      ensures old(isRunning) ==> Idle() && signedIn == old(signedIn)
      ensures old(isRunning) ==> savedUsers == old(savedUsers)[email := Record()]
      ensures old(isRunning) ==> savedCurrent == Some(Record())
      ensures old(isRunning) ==>
        notice == Some((Durations.FormatDuration(old(Accumulated(now))), old(currentSession).value.projectName))
    {
      if !isRunning {
        return None;
      }
      var s := currentSession.value;
      var duration := if isPaused then elapsedTime else now - s.startTime;
      assert duration == Accumulated(now);
      var entry, credited := LogEntry(s, entryId, duration, now, tz), Credit(projects, s.projectId, duration);
      timeEntries := timeEntries + [entry];
      projects := credited;
      SaveUserData();
      ghost var saved := savedUsers;
      assert saved == old(savedUsers)[email := Record()];
      Reset();
      assert savedUsers == saved && savedCurrent == Some(Record());
      assert timeEntries == old(timeEntries) + [entry] && projects == credited && signedIn == old(signedIn);
      notice := Some((Durations.FormatDuration(duration), s.projectName));
    }

    /**
     * `timer.stop` as written: the completion notice reads the project name
     * from the session that `reset` has just cleared, so every stop of a
     * running session ends by raising an error after its changes are made.
     */
    method StopAsWritten(now: int, entryId: string) returns (raised: bool)
      requires Valid()
      modifies this`timeEntries, this`projects, this`savedUsers, this`savedCurrent
      modifies this`startTime, this`isRunning, this`isPaused, this`elapsedTime, this`currentSession, this`runs
      ensures Valid()
      ensures raised == old(isRunning)
      ensures !old(isRunning) ==> unchanged(this)
      ensures old(isRunning) ==>
        timeEntries == old(timeEntries) + [LogEntry(old(currentSession).value, entryId, old(Accumulated(now)), now, tz)]
      ensures old(isRunning) ==>
        projects == Credit(old(projects), old(currentSession).value.projectId, old(Accumulated(now)))
      ensures old(isRunning) ==> Idle() && signedIn == old(signedIn)
      ensures old(isRunning) ==> savedUsers == old(savedUsers)[email := Record()] && savedCurrent == Some(Record())
    {
      raised := isRunning;
      var _ := Stop(now, entryId);
    }

    /** `timer.updateDisplay`: refreshes the elapsed time of a running session and shows it. */
    method UpdateDisplay(now: int) returns (shown: string)
      requires Valid()
      modifies this`elapsedTime
      ensures Valid()
      ensures old(isRunning) && !old(isPaused) ==> elapsedTime == Accumulated(now)
      ensures !(old(isRunning) && !old(isPaused)) ==> elapsedTime == old(elapsedTime)
      ensures isPaused ==> elapsedTime == Accumulated(now)
      ensures shown == Durations.FormatDuration(elapsedTime)
    {
      if isRunning && !isPaused {
        elapsedTime := now - currentSession.value.startTime;
        assert elapsedTime == Accumulated(now);
      }
      assert Valid();
      shown := Durations.FormatDuration(elapsedTime);
    }

    /** `projects.add`: appends a new project with the trimmed name and description. */
    method AddProject(nameInput: string, descriptionInput: string, color: string, id: string, now: int)
      returns (r: Outcome)
      requires Valid()
      modifies this`projects, this`savedUsers, this`savedCurrent
      ensures Valid()
      ensures Trim(nameInput) == [] ==> r == Refused(EmptyProjectName) && unchanged(this)
      ensures Trim(nameInput) != [] ==>
        && r == Done
        && projects == old(projects) + [Project(id, Trim(nameInput), Trim(descriptionInput), color, now, 0)]
        && savedUsers == old(savedUsers)[email := Record()] && savedCurrent == Some(Record())
    {
      var name := Trim(nameInput);
      var description := Trim(descriptionInput);
      if name == [] {
        return Refused(EmptyProjectName);
      }
      var added := projects + [Project(id, name, description, color, now, 0)];
      projects := added;
      assert Valid();
      SaveUserData();
      assert projects == added;
      r := Done;
    }

    /** `projects.delete`: on confirmation removes the project and every entry logged to it. */
    method DeleteProject(projectId: string, confirmed: bool)
      requires Valid()
      modifies this`projects, this`timeEntries, this`savedUsers, this`savedCurrent
      ensures Valid()
      ensures !confirmed ==> unchanged(this)
      ensures confirmed ==>
        && projects == Keep(old(projects), NotProject(projectId))
        && timeEntries == Keep(old(timeEntries), NotLoggedTo(projectId))
        && savedUsers == old(savedUsers)[email := Record()] && savedCurrent == Some(Record())
    {
      if confirmed {
        projects := Keep(projects, NotProject(projectId));
        timeEntries := Keep(timeEntries, NotLoggedTo(projectId));
        SaveUserData();
      }
    }

    /**
     * `auth.logout` with the stop completing normally: a running session is
     * stopped and logged once the user confirms; declining keeps everything.
     */
    method Logout(confirmed: bool, now: int, entryId: string) returns (signedOut: bool)
      requires Valid()
      modifies this`timeEntries, this`projects, this`savedUsers, this`savedCurrent, this`signedIn
      modifies this`startTime, this`isRunning, this`isPaused, this`elapsedTime, this`currentSession, this`runs
      ensures Valid()
      ensures signedOut <==> !old(isRunning) || confirmed
      ensures !signedOut ==> unchanged(this)
      ensures signedOut ==> !signedIn && savedCurrent.None? && Idle()
      ensures signedOut && old(isRunning) ==>
        timeEntries == old(timeEntries) + [LogEntry(old(currentSession).value, entryId, old(Accumulated(now)), now, tz)]
      ensures signedOut && old(isRunning) ==>
        projects == Credit(old(projects), old(currentSession).value.projectId, old(Accumulated(now)))
      ensures signedOut && old(isRunning) ==> savedUsers == old(savedUsers)[email := Record()]
      ensures !old(isRunning) ==> Record() == old(Record()) && savedUsers == old(savedUsers)
    {
      if isRunning {
        if !confirmed {
          return false;
        }
        var _ := Stop(now, entryId);
      }
      signedIn := false;
      savedCurrent := None;
      signedOut := true;
    }

    /** `auth.logout` as written: the error raised by the stop abandons the sign-out. */
    method LogoutAsWritten(confirmed: bool, now: int, entryId: string) returns (signedOut: bool)
      requires Valid()
      modifies this`timeEntries, this`projects, this`savedUsers, this`savedCurrent, this`signedIn
      modifies this`startTime, this`isRunning, this`isPaused, this`elapsedTime, this`currentSession, this`runs
      ensures Valid()
      ensures signedOut <==> !old(isRunning)
      ensures signedOut ==>
        && !signedIn && savedCurrent.None? && Idle()
        && Record() == old(Record()) && savedUsers == old(savedUsers)
      ensures old(isRunning) && !confirmed ==> unchanged(this)
      ensures old(isRunning) && confirmed ==>
        && signedIn == old(signedIn) && savedCurrent == Some(Record()) && Idle()
        && savedUsers == old(savedUsers)[email := Record()]
      ensures old(isRunning) && confirmed ==>
        timeEntries == old(timeEntries) + [LogEntry(old(currentSession).value, entryId, old(Accumulated(now)), now, tz)]
      ensures old(isRunning) && confirmed ==>
        projects == Credit(old(projects), old(currentSession).value.projectId, old(Accumulated(now)))
    {
      if isRunning {
        if !confirmed {
          return false;
        }
        var raised := StopAsWritten(now, entryId);
        if raised {
          return false;
        }
      }
      signedIn := false;
      savedCurrent := None;
      signedOut := true;
    }
  }

  // ---------------------------------------------------------------------------
  // Sessions end to end

  /**
   * Start at t0, pause 30 s later, resume a minute after that and stop a
   * minute later: 90 s are logged and credited, the paused minute is not.
   */
  method PausedGapScenario(t0: int) returns (logged: int, credited: int)
    ensures logged == 90000 && credited == 90000
  {
    var p := Project("m1", "Thesis", "", "#d4af37", t0, 0);
    var t := new Tracker("ada@example.org", 0, UserRecord([p], []), map[]);
    assert t.projects[0].id == "m1";
    assert t.timeEntries == [];
    var r := t.Start("m1", " chapter 2 ", t0);
    assert t.timeEntries == [];
    assert t.isRunning && !t.isPaused;
    t.Pause(t0 + 30000);
    assert t.isRunning && t.isPaused && t.elapsedTime == 30000;
    t.Resume(t0 + 90000);
    assert t.isRunning && t.Accumulated(t0 + 150000) == 90000;
    assert t.projects == [p] && t.currentSession.value.projectId == "m1";
    var notice := t.Stop(t0 + 150000, "e1");
    assert Credit([p], "m1", 90000) == [p.(totalTime := 90000)] by {
      assert FindProject([p], "m1") == Some(0);
    }
    assert |t.timeEntries| == 1;
    logged := t.timeEntries[0].duration;
    credited := t.projects[0].totalTime;
  }

  /** Confirming a sign-out during a session stops and logs it, yet leaves the user signed in. */
  method LogoutDuringSessionScenario(t0: int) returns (signedOut: bool, stillSignedIn: bool, logged: nat)
    ensures !signedOut && stillSignedIn && logged == 1
  {
    var p := Project("m1", "Thesis", "", "#d4af37", t0, 0);
    var t := new Tracker("ada@example.org", 0, UserRecord([p], []), map[]);
    assert t.projects[0].id == "m1";
    var r := t.Start("m1", "", t0);
    signedOut := t.LogoutAsWritten(true, t0 + 60000, "e1");
    stillSignedIn := t.signedIn;
    logged := |t.timeEntries|;
  }
}

=== FILE: helpers.dfy ===
/**
 * The standalone `Utils` helpers of util.js: calendar windows, the
 * statistics pass over time entries, the day streak, grouping and sorting,
 * string clean-up and the hex colour parse. Its `formatDuration` is the
 * same function as Durations.FormatDuration.
 */
module Helpers {
  import opened Wrappers
  import opened Text
  import opened Calendar
  import opened Sequences

  // ---------------------------------------------------------------------------
  // Date windows

  /** An inclusive range of instants. */
  datatype Window = Window(start: int, end: int)

  predicate Within(w: Window, t: int) { w.start <= t <= w.end }

  /** The 'month' window as written: it ends at 23:59:59.000 on the last day of the month. */
  function MonthWindowAsWritten(now: int, tz: int): Window
  {
    var (first, next) := MonthDays(DayOf(now, tz));
    Window(MidnightOf(first, tz), MidnightOf(next, tz) - 1000)
  }

  /** The 'month' window ending, like the other two, one millisecond before the next midnight. */
  function MonthWindow(now: int, tz: int): Window
  {
    var (first, next) := MonthDays(DayOf(now, tz));
    Window(MidnightOf(first, tz), MidnightOf(next, tz) - 1)
  }

  function TodayWindow(now: int, tz: int): Window
  {
    var today := DayOf(now, tz);
    Window(MidnightOf(today, tz), MidnightOf(today, tz) + MsPerDay - 1)
  }

  function WeekWindow(now: int, tz: int): Window
  {
    var weekStart := WeekStartOf(DayOf(now, tz), tz);
    Window(weekStart, weekStart + 7 * MsPerDay - 1)
  }

  /** `getDateRange`: today's, this week's or this month's window; nothing for any other name. */
  function GetDateRange(period: string, now: int, tz: int): (w: Option<Window>)
    ensures w.Some? <==> period == "today" || period == "week" || period == "month"
  {
    if period == "today" then Some(TodayWindow(now, tz))
    else if period == "week" then Some(WeekWindow(now, tz))
    else if period == "month" then Some(MonthWindow(now, tz))
    else None
  }

  lemma TodayRange(now: int, t: int, tz: int)
    ensures Within(GetDateRange("today", now, tz).value, t) <==> DayOf(t, tz) == DayOf(now, tz)
  {
    var d := DayOf(now, tz);
    DaySpan(t, d, d + 1, tz);
  }

  lemma WeekRange(now: int, t: int, tz: int)
    ensures var first := DayOf(now, tz) - Weekday(DayOf(now, tz));
      && Weekday(first) == 0 && first <= DayOf(now, tz) < first + 7
      && (Within(GetDateRange("week", now, tz).value, t) <==> first <= DayOf(t, tz) < first + 7)
  {
    var d := DayOf(now, tz);
    var first := d - Weekday(d);
    WeekStartIsSunday(d);
    DaySpan(t, first, first + 7, tz);
  }

  lemma MonthRange(now: int, t: int, tz: int)
    ensures var (first, next) := MonthDays(DayOf(now, tz));
      Within(GetDateRange("month", now, tz).value, t) <==> first <= DayOf(t, tz) < next
  {
    var (first, next) := MonthDays(DayOf(now, tz));
    DaySpan(t, first, next, tz);
  }

  /**
   * As written, the month window loses the last 999 ms before the next
   * month begins: every instant in them lies on the day before the next
   * month's first day, outside the window, and inside the corrected one.
   */
  lemma MonthEndAsWrittenMisses(now: int, t: int, tz: int)
    requires var next := MonthDays(DayOf(now, tz)).1;
      MidnightOf(next, tz) - 1000 < t < MidnightOf(next, tz)
    ensures DayOf(t, tz) == MonthDays(DayOf(now, tz)).1 - 1
    ensures !Within(MonthWindowAsWritten(now, tz), t)
    ensures Within(MonthWindow(now, tz), t)
  {
    var (first, next) := MonthDays(DayOf(now, tz));
    MonthDaysNonEmpty(DayOf(now, tz));
    DayOfIff(t, next - 1, tz);
    DaySpan(t, first, next, tz);
  }

  /**
   * An instance: at 23:59:59.500 UTC on 31 January 2024, with the clock on
   * UTC, the instant is in January but outside the as-written January window.
   */
  lemma JanuaryLastSecond()
    ensures var now := 1706745599500;
      && CivilFromDays(DayOf(now, 0)) == (2024, 1, 31)
      && MonthDays(DayOf(now, 0)) == (19723, 19754)
      && !Within(MonthWindowAsWritten(now, 0), now)
      && Within(MonthWindow(now, 0), now)
  {
    var now := 1706745599500;
    assert DayOf(now, 0) == 19753;
    assert 739221 / 146097 == 5 && 739221 % 146097 == 8736;
    assert (8736 - 8736 / 1460 + 8736 / 36524 - 8736 / 146096) / 365 == 23;
    assert (5 * 336 + 2) / 153 == 10 && (153 * 10 + 2) / 5 == 306;
    assert CivilFromDays(19753) == (2024, 1, 31);
    assert DaysFromCivil(2024, 1, 1) == 19723;
    assert DaysFromCivil(2024, 2, 1) == 19754;
  }

  // ---------------------------------------------------------------------------
  // Statistics

  /** A time entry as the helpers read it; the duration may be missing. */
  datatype LoggedEntry = LoggedEntry(projectId: string, startTime: int, duration: Option<int>)

  /** One window's running figures: time, session count and the set of project ids seen. */
  datatype Tally = Tally(time: int, sessions: nat, projects: set<string>)

  datatype WindowStats = WindowStats(time: int, sessions: nat, projects: nat)

  datatype Stats = Stats(today: WindowStats, week: WindowStats, month: WindowStats, total: WindowStats)

  /** `entry.duration || 0`. */
  function DurationOf(e: LoggedEntry): int
  {
    match e.duration
    case Some(d) => d
    case None => 0
  }

  /** Counts `e` into a window's figures when it started inside the window. */
  function CountIn(t: Tally, w: Window, e: LoggedEntry): Tally
  {
    if Within(w, e.startTime) then Tally(t.time + DurationOf(e), t.sessions + 1, t.projects + {e.projectId})
    else t
  }

  function TotalTime(es: seq<LoggedEntry>): int
  {
    if es == [] then 0 else TotalTime(es[..|es| - 1]) + DurationOf(es[|es| - 1])
  }

  /** A window's figures over `es`: the entries that started inside it, their time and their project ids. */
  function TallyOf(es: seq<LoggedEntry>, w: Window): (r: Tally)
    ensures forall p :: p in r.projects <==> exists i :: 0 <= i < |es| && Within(w, es[i].startTime) && es[i].projectId == p
  {
    if es == [] then Tally(0, 0, {})
    else
      var init := es[..|es| - 1];
      assert forall i :: 0 <= i < |init| ==> init[i] == es[i];
      CountIn(TallyOf(init, w), w, es[|es| - 1])
  }

  function Summarize(t: Tally): WindowStats
  {
    WindowStats(t.time, t.sessions, |t.projects|)
  }

  /** Every duration as the statistics count it (a missing one as 0) is non-negative. */
  predicate CountedNonNegative(es: seq<LoggedEntry>)
  {
    forall i :: 0 <= i < |es| ==> DurationOf(es[i]) >= 0
  }

  /**
   * Window sessions never outnumber the entries, distinct projects never
   * outnumber the sessions, and over non-negative durations a window's
   * time lies between zero and the total.
   */
  lemma {:induction false} WindowBounds(es: seq<LoggedEntry>, w: Window)
    ensures TallyOf(es, w).sessions <= |es|
    ensures |TallyOf(es, w).projects| <= TallyOf(es, w).sessions
    ensures CountedNonNegative(es) ==> 0 <= TallyOf(es, w).time <= TotalTime(es)
  {
    if es != [] {
      var init := es[..|es| - 1];
      assert forall i :: 0 <= i < |init| ==> init[i] == es[i];
      WindowBounds(init, w);
    }
  }

  function StartsIn(w: Window): LoggedEntry -> bool
  {
    (e: LoggedEntry) => Within(w, e.startTime)
  }

  /**
   * The one-pass tally agrees with filtering first: a window's session
   * count is the number of entries that started inside it, and its time
   * is their summed duration.
   */
  lemma {:induction false} TallyCounts(es: seq<LoggedEntry>, w: Window)
    ensures TallyOf(es, w).sessions == |Keep(es, StartsIn(w))|
    ensures TallyOf(es, w).time == TotalTime(Keep(es, StartsIn(w)))
  {
    if es != [] {
      var init, e := es[..|es| - 1], es[|es| - 1];
      assert es == init + [e];
      var t, k := TallyOf(init, w), Keep(init, StartsIn(w));
      assert TallyOf(es, w) == CountIn(t, w, e);
      TallyCounts(init, w);
      KeepAppendOne(init, e, StartsIn(w));
      if Within(w, e.startTime) {
        assert Keep(es, StartsIn(w)) == k + [e];
        TotalTimeAppend(k, e);
      } else {
        assert Keep(es, StartsIn(w)) == k;
      }
    }
  }

  lemma TotalTimeAppend(s: seq<LoggedEntry>, e: LoggedEntry)
    ensures TotalTime(s + [e]) == TotalTime(s) + DurationOf(e)
  {
    assert (s + [e])[..|s|] == s;
  }

  /** A window inside another counts no more time, sessions or projects. */
  lemma {:induction false} WindowMonotone(es: seq<LoggedEntry>, inner: Window, outer: Window)
    requires outer.start <= inner.start && inner.end <= outer.end
    requires CountedNonNegative(es)
    ensures TallyOf(es, inner).time <= TallyOf(es, outer).time
    ensures TallyOf(es, inner).sessions <= TallyOf(es, outer).sessions
    ensures TallyOf(es, inner).projects <= TallyOf(es, outer).projects
  {
    if es != [] {
      var init := es[..|es| - 1];
      assert forall i :: 0 <= i < |init| ==> init[i] == es[i];
      WindowMonotone(init, inner, outer);
    }
  }

  /** `calculateStats`, counting part: one pass over the entries, tallying each window. */
  method CalculateStats(es: seq<LoggedEntry>, projectCount: nat, now: int, tz: int) returns (st: Stats)
    ensures st.total == WindowStats(TotalTime(es), |es|, projectCount)
    ensures st.today == Summarize(TallyOf(es, GetDateRange("today", now, tz).value))
    ensures st.week == Summarize(TallyOf(es, GetDateRange("week", now, tz).value))
    ensures st.month == Summarize(TallyOf(es, GetDateRange("month", now, tz).value))
  {
    var todayWindow := GetDateRange("today", now, tz).value;
    var weekWindow := GetDateRange("week", now, tz).value;
    var monthWindow := GetDateRange("month", now, tz).value;
    var totalTime := 0;
    var today, week, month := Tally(0, 0, {}), Tally(0, 0, {}), Tally(0, 0, {});
    var i := 0;
    while i < |es|
      invariant 0 <= i <= |es|
      invariant totalTime == TotalTime(es[..i])
      invariant today == TallyOf(es[..i], todayWindow)
      invariant week == TallyOf(es[..i], weekWindow)
      invariant month == TallyOf(es[..i], monthWindow)
    {
      var e := es[i];
      assert es[..i + 1][..i] == es[..i] && es[..i + 1][i] == e;
      totalTime := totalTime + DurationOf(e);
      today := CountIn(today, todayWindow, e);
      week := CountIn(week, weekWindow, e);
      month := CountIn(month, monthWindow, e);
      i := i + 1;
    }
    assert es[..i] == es;
    st := Stats(Summarize(today), Summarize(week), Summarize(month), WindowStats(totalTime, |es|, projectCount));
  }

  /** Today's figures never exceed this week's, and none exceeds the totals. */
  lemma TodayWithinWeek(es: seq<LoggedEntry>, now: int, tz: int)
    requires CountedNonNegative(es)
    ensures var today, week := TallyOf(es, TodayWindow(now, tz)), TallyOf(es, WeekWindow(now, tz));
      && 0 <= today.time <= week.time <= TotalTime(es)
      && today.sessions <= week.sessions <= |es|
      && today.projects <= week.projects
  {
    var d := DayOf(now, tz);
    WeekStartIsSunday(d);
    WindowMonotone(es, TodayWindow(now, tz), WeekWindow(now, tz));
    WindowBounds(es, TodayWindow(now, tz));
    WindowBounds(es, WeekWindow(now, tz));
  }

  // ---------------------------------------------------------------------------
  // Day streak

  /** The sort key of the streak: when a logged entry started. */
  function LoggedStart(e: LoggedEntry): int { e.startTime }

  /** Whole local days between the day an entry started and today. */
  function DaysAgo(e: LoggedEntry, now: int, tz: int): int
  {
    DayOf(now, tz) - DayOf(e.startTime, tz)
  }

  /** Some entry of `s` started `j` days before today. */
  predicate StartedDaysAgo(s: seq<LoggedEntry>, now: int, tz: int, j: int)
  {
    exists i :: 0 <= i < |s| && DaysAgo(s[i], now, tz) == j
  }

  /**
   * `calculateStreak`: sorts the caller's entries latest first, in place,
   * then counts back from today. The streak is the number of consecutive
   * days, ending today, on each of which some entry started.
   */
  method CalculateStreak(a: array<LoggedEntry>, now: int, tz: int) returns (streak: nat)
    modifies a
    ensures a[..] == Sort(old(a[..]), LoggedStart, true)
    ensures streak <= a.Length
    ensures forall j :: 0 <= j < streak ==> StartedDaysAgo(a[..], now, tz, j)
    ensures !StartedDaysAgo(a[..], now, tz, streak)
  {
    if a.Length == 0 {
      return 0;
    }
    SortLatestFirst(a);
    streak := CountStreak(a, now, tz);
  }

  /** `timeEntries.sort(...)`: reorders the array itself, latest start first. */
  method SortLatestFirst(a: array<LoggedEntry>)
    modifies a
    ensures a[..] == Sort(old(a[..]), LoggedStart, true)
  {
    var sorted := Sort(a[..], LoggedStart, true);
    assert |sorted| == a.Length by {
      assert |multiset(sorted)| == |multiset(a[..])|;
    }
    for k := 0 to a.Length
      invariant forall j :: 0 <= j < k ==> a[j] == sorted[j]
    {
      a[k] := sorted[k];
    }
    assert a[..] == sorted;
  }

  /** The counting loop of `calculateStreak`, over entries already sorted latest first. */
  method CountStreak(a: array<LoggedEntry>, now: int, tz: int) returns (streak: nat)
    requires Ordered(a[..], LoggedStart, true)
    ensures streak <= a.Length
    ensures forall j :: 0 <= j < streak ==> StartedDaysAgo(a[..], now, tz, j)
    ensures !StartedDaysAgo(a[..], now, tz, streak)
  {
    streak := 0;
    var today := DayOf(now, tz);
    var i := 0;
    while i < a.Length
      invariant 0 <= i <= a.Length && streak <= i
      invariant forall j :: 0 <= j < streak ==> StartedDaysAgo(a[..i], now, tz, j)
      invariant !StartedDaysAgo(a[..i], now, tz, streak)
    {
      var entryDay := DayOf(a[i].startTime, tz);
      var dayDiff := (MidnightOf(today, tz) - MidnightOf(entryDay, tz)) / MsPerDay;
      MidnightGap(today, entryDay, tz);
      StreakStep(a[..], now, tz, i, streak, a[..i], a[..i + 1]);
      if dayDiff == streak {
        streak := streak + 1;
      } else if dayDiff > streak + 1 {
        StreakStop(a[..], now, tz, i, streak, a[..i]);
        return;
      }
      i := i + 1;
    }
    assert a[..i] == a[..];
  }

  /** One step of the count keeps its two facts about the entries seen so far. */
  lemma StreakStep(s: seq<LoggedEntry>, now: int, tz: int, i: nat, streak: nat, seen: seq<LoggedEntry>, seen': seq<LoggedEntry>)
    requires Ordered(s, LoggedStart, true) && i < |s| && seen == s[..i] && seen' == s[..i + 1]
    requires forall j :: 0 <= j < streak ==> StartedDaysAgo(seen, now, tz, j)
    requires !StartedDaysAgo(seen, now, tz, streak)
    ensures var next := if DaysAgo(s[i], now, tz) == streak then streak + 1 else streak;
      && (forall j :: 0 <= j < next ==> StartedDaysAgo(seen', now, tz, j))
      && !StartedDaysAgo(seen', now, tz, next)
  {
    var next := if DaysAgo(s[i], now, tz) == streak then streak + 1 else streak;
    assert seen' == seen + [s[i]];
    forall j | 0 <= j < next
      ensures StartedDaysAgo(seen', now, tz, j)
    {
      if j < streak {
        assert StartedDaysAgo(seen, now, tz, j);
        var m :| 0 <= m < |seen| && DaysAgo(seen[m], now, tz) == j;
        assert seen'[m] == seen[m];
      } else {
        assert seen'[i] == s[i];
      }
    }
  }

  /** Entries sorted latest first: once one lies more than `streak` + 1 days back, none later matches. */
  lemma StreakStop(s: seq<LoggedEntry>, now: int, tz: int, i: nat, streak: nat, seen: seq<LoggedEntry>)
    requires Ordered(s, LoggedStart, true) && i < |s| && seen == s[..i]
    requires DaysAgo(s[i], now, tz) > streak + 1
    requires forall j :: 0 <= j < streak ==> StartedDaysAgo(seen, now, tz, j)
    requires !StartedDaysAgo(seen, now, tz, streak)
    ensures forall j :: 0 <= j < streak ==> StartedDaysAgo(s, now, tz, j)
    ensures !StartedDaysAgo(s, now, tz, streak)
  {
    forall j | 0 <= j < streak
      ensures StartedDaysAgo(s, now, tz, j)
    {
      assert StartedDaysAgo(seen, now, tz, j);
      var m :| 0 <= m < |seen| && DaysAgo(seen[m], now, tz) == j;
      assert s[m] == seen[m];
    }
  }

  // ---------------------------------------------------------------------------
  // Grouping and sorting

  function HasKey<T, K(==)>(key: T -> K, k: K): T -> bool
  {
    (x: T) => key(x) == k
  }

  function KeysOf<T, K(==)>(items: seq<T>, key: T -> K): set<K>
  {
    set i | 0 <= i < |items| :: key(items[i])
  }

  /**
   * The groups `groupBy`'s `reduce` builds: each item in turn is pushed
   * onto the group of its key, which is created when missing.
   */
  function Groups<T, K(==)>(items: seq<T>, key: T -> K): map<K, seq<T>>
  {
    if items == [] then map[]
    else
      var g, x := Groups(items[..|items| - 1], key), items[|items| - 1];
      g[key(x) := (if key(x) in g then g[key(x)] else []) + [x]]
  }

  /**
   * `groupBy`: one pass over the items. There is a group exactly for each
   * key that occurs, and it holds the items with that key in input order.
   */
  method GroupBy<T, K(==)>(items: seq<T>, key: T -> K) returns (groups: map<K, seq<T>>)
    ensures forall k :: k in groups <==> k in KeysOf(items, key)
    ensures forall k :: k in groups ==> groups[k] == Keep(items, HasKey(key, k))
  {
    groups := map[];
    var i := 0;
    while i < |items|
      invariant 0 <= i <= |items|
      invariant groups == Groups(items[..i], key)
    {
      var x := items[i];
      var k := key(x);
      var group := if k in groups then groups[k] else [];
      assert items[..i + 1][..i] == items[..i] && items[..i + 1][i] == x;
      groups := groups[k := group + [x]];
      i := i + 1;
    }
    assert items[..i] == items;
    GroupsAreFilters(items, key);
  }

  /** The keys of `init + [x]` are those of `init` and the key of `x`. */
  lemma KeysAppend<T, K>(init: seq<T>, x: T, key: T -> K)
    ensures KeysOf(init + [x], key) == KeysOf(init, key) + {key(x)}
  {
    var items := init + [x];
    forall k | k in KeysOf(items, key)
      ensures k in KeysOf(init, key) + {key(x)}
    {
      var i :| 0 <= i < |items| && key(items[i]) == k;
      if i < |init| {
        assert items[i] == init[i];
      }
    }
    forall k | k in KeysOf(init, key)
      ensures k in KeysOf(items, key)
    {
      var i :| 0 <= i < |init| && key(init[i]) == k;
      assert items[i] == init[i];
    }
    assert items[|init|] == x;
  }

  /** The groups built one item at a time are the items filtered by each key that occurs. */
  lemma {:induction false} GroupsAreFilters<T, K>(items: seq<T>, key: T -> K)
    ensures forall k :: k in Groups(items, key) <==> k in KeysOf(items, key)
    ensures forall k :: k in Groups(items, key) ==> Groups(items, key)[k] == Keep(items, HasKey(key, k))
  {
    if items != [] {
      var init, x := items[..|items| - 1], items[|items| - 1];
      assert items == init + [x];
      GroupsAreFilters(init, key);
      KeysAppend(init, x, key);
      var g := Groups(init, key);
      forall k | k in Groups(items, key)
        ensures Groups(items, key)[k] == Keep(items, HasKey(key, k))
      {
        KeepAppendOne(init, x, HasKey(key, k));
        if k == key(x) && k !in g {
          assert forall i :: 0 <= i < |init| ==> key(init[i]) in KeysOf(init, key);
          KeepNone(init, HasKey(key, k));
        }
      }
    }
  }

  /** Every item is in the group of its key, and every group is non-empty and holds only items with that key. */
  lemma GroupsPlaceEachItem<T, K>(items: seq<T>, key: T -> K)
    ensures forall i :: 0 <= i < |items| ==> key(items[i]) in Groups(items, key) && items[i] in Groups(items, key)[key(items[i])]
    ensures forall k :: k in Groups(items, key) ==>
      Groups(items, key)[k] != [] && forall j :: 0 <= j < |Groups(items, key)[k]| ==> key(Groups(items, key)[k][j]) == k
  {
    var g := Groups(items, key);
    GroupsAreFilters(items, key);
    forall i | 0 <= i < |items|
      ensures key(items[i]) in g && items[i] in g[key(items[i])]
    {
      ItemInItsGroup(items, key, i);
    }
    forall k | k in g
      ensures g[k] != [] && forall j :: 0 <= j < |g[k]| ==> key(g[k][j]) == k
    {
      GroupOfKey(items, key, k);
    }
  }

  /** The group of a key that occurs is non-empty and holds only items with that key. */
  lemma GroupOfKey<T, K>(items: seq<T>, key: T -> K, k: K)
    requires k in Groups(items, key)
    ensures Groups(items, key)[k] != []
    ensures forall j :: 0 <= j < |Groups(items, key)[k]| ==> key(Groups(items, key)[k][j]) == k
  {
    GroupsAreFilters(items, key);
    var r := Keep(items, HasKey(key, k));
    assert Groups(items, key)[k] == r;
    assert k in KeysOf(items, key);
    var i :| 0 <= i < |items| && key(items[i]) == k;
    assert HasKey(key, k)(items[i]);
    assert items[i] in r;
    forall j | 0 <= j < |r|
      ensures key(r[j]) == k
    {
      assert HasKey(key, k)(r[j]);
    }
  }

  lemma ItemInItsGroup<T, K>(items: seq<T>, key: T -> K, i: nat)
    requires i < |items|
    ensures key(items[i]) in Groups(items, key) && items[i] in Groups(items, key)[key(items[i])]
  {
    var k := key(items[i]);
    GroupsAreFilters(items, key);
    assert k in KeysOf(items, key);
    assert HasKey(key, k)(items[i]);
    assert items[i] in Keep(items, HasKey(key, k));
  }

  /** The summed sizes of the groups named in `ks`. */
  function GroupSizes<T, K(==)>(items: seq<T>, key: T -> K, ks: seq<K>): nat
  {
    if ks == [] then 0 else GroupSizes(items, key, ks[..|ks| - 1]) + |Keep(items, HasKey(key, ks[|ks| - 1]))|
  }

  function Occurrences<K(==)>(ks: seq<K>, k: K): nat
  {
    if ks == [] then 0 else Occurrences(ks[..|ks| - 1], k) + (if ks[|ks| - 1] == k then 1 else 0)
  }

  lemma {:induction false} GroupSizesAppend<T, K>(items: seq<T>, x: T, key: T -> K, ks: seq<K>)
    ensures GroupSizes(items + [x], key, ks) == GroupSizes(items, key, ks) + Occurrences(ks, key(x))
  {
    if ks != [] {
      GroupSizesAppend(items, x, key, ks[..|ks| - 1]);
      KeepAppendOne(items, x, HasKey(key, ks[|ks| - 1]));
    }
  }

  predicate Distinct<K(==)>(ks: seq<K>)
  {
    forall i, j :: 0 <= i < j < |ks| ==> ks[i] != ks[j]
  }

  lemma {:induction false} OccursOnce<K>(ks: seq<K>, k: K)
    requires Distinct(ks) && k in ks
    ensures Occurrences(ks, k) == 1
  {
    var init := ks[..|ks| - 1];
    if ks[|ks| - 1] == k {
      OccursNot(init, k);
    } else {
      assert k in init;
      OccursOnce(init, k);
    }
  }

  lemma {:induction false} OccursNot<K>(ks: seq<K>, k: K)
    requires k !in ks
    ensures Occurrences(ks, k) == 0
  {
    if ks != [] {
      OccursNot(ks[..|ks| - 1], k);
    }
  }

  /** Listing every group once, the group sizes add up to the number of items. */
  lemma {:induction false} GroupSizesSum<T, K>(items: seq<T>, key: T -> K, ks: seq<K>)
    requires Distinct(ks)
    requires forall i :: 0 <= i < |items| ==> key(items[i]) in ks
    ensures GroupSizes(items, key, ks) == |items|
  {
    if items == [] {
      GroupSizesEmpty(key, ks);
    } else {
      var init, x := items[..|items| - 1], items[|items| - 1];
      assert items == init + [x];
      GroupSizesSum(init, key, ks);
      GroupSizesAppend(init, x, key, ks);
      OccursOnce(ks, key(x));
    }
  }

  lemma {:induction false} GroupSizesEmpty<T, K>(key: T -> K, ks: seq<K>)
    ensures GroupSizes([], key, ks) == 0
  {
    if ks != [] {
      GroupSizesEmpty(key, ks[..|ks| - 1]);
    }
  }

  /** Summed over an enumeration of its keys, the sizes of `groupBy`'s groups add up to the item count. */
  lemma GroupsPartition<T, K>(items: seq<T>, key: T -> K, ks: seq<K>)
    requires Distinct(ks) && (forall i :: 0 <= i < |ks| ==> ks[i] in Groups(items, key))
    requires forall k :: k in Groups(items, key) ==> k in ks
    ensures GroupSizes(items, key, ks) == |items|
    ensures forall i :: 0 <= i < |ks| ==> |Groups(items, key)[ks[i]]| == |Keep(items, HasKey(key, ks[i]))|
  {
    forall i | 0 <= i < |items|
      ensures key(items[i]) in ks
    {
      ItemInItsGroup(items, key, i);
    }
    GroupsAreFilters(items, key);
    GroupSizesSum(items, key, ks);
  }

  /** `sortBy`: a sorted copy, ascending for "asc" and descending for any other direction. */
  function SortBy<T>(items: seq<T>, key: T -> int, direction: string): (r: seq<T>)
    ensures Ordered(r, key, direction != "asc")
    ensures multiset(r) == multiset(items)
  {
    Sort(items, key, direction != "asc")
  }

  // ---------------------------------------------------------------------------
  // Strings

  function NotAngle(c: char): bool { c != '<' && c != '>' }

  /** `sanitizeString`: trims, then deletes every angle bracket. */
  function Sanitize(s: string): (r: string)
    ensures s == [] ==> r == []
    ensures forall i :: 0 <= i < |r| ==> r[i] != '<' && r[i] != '>'
    ensures forall i :: 0 <= i < |r| ==> r[i] in Trim(s)
    ensures forall i :: 0 <= i < |Trim(s)| && NotAngle(Trim(s)[i]) ==> Trim(s)[i] in r
  {
    if s == [] then [] else Keep(Trim(s), NotAngle)
  }

  /**
   * Sanitizing twice only trims again: deleting a bracket can leave a
   * space at the edge, so the operation is not idempotent.
   */
  lemma SanitizeTwice(s: string)
    ensures Sanitize(Sanitize(s)) == Trim(Sanitize(s))
  {
    var r := Sanitize(s);
    if r != [] {
      NoAngleInTrim(r);
    }
  }

  /** "a <" sanitizes to "a ", which sanitizes again to "a": `Sanitize` is not idempotent. */
  lemma SanitizeNotIdempotent()
    ensures Sanitize("a <") == "a "
    ensures Sanitize(Sanitize("a <")) == "a"
    ensures Sanitize(Sanitize("a <")) != Sanitize("a <")
  {
    SanitizeDropsBracket();
    SanitizeTrimsSpace();
  }

  lemma SanitizeDropsBracket()
    ensures Sanitize("a <") == "a "
  {
    assert "a <" == ['a', ' '] + ['<'];
    TrimUnchanged("a <");
    KeepAppendOne(['a', ' '], '<', NotAngle);
    KeepTwo('a', ' ');
  }

  lemma SanitizeTrimsSpace()
    ensures Sanitize("a ") == "a"
  {
    TrimLastSpace('a');
    assert ['a'] == [] + ['a'];
    KeepAppendOne([], 'a', NotAngle);
  }

  /** Two characters without angle brackets survive the filter. */
  lemma KeepTwo(a: char, b: char)
    requires NotAngle(a) && NotAngle(b)
    ensures Keep([a, b], NotAngle) == [a, b]
  {
    assert [a, b] == [a] + [b];
    assert [a] == [] + [a];
    KeepAppendOne([a], b, NotAngle);
    KeepAppendOne([], a, NotAngle);
  }

  /** Trimming a text free of angle brackets leaves it free of them. */
  lemma NoAngleInTrim(r: string)
    requires forall i :: 0 <= i < |r| ==> NotAngle(r[i])
    ensures forall k :: 0 <= k < |Trim(r)| ==> NotAngle(Trim(r)[k])
  {
    var t := Trim(r);
    var i, j :| 0 <= i <= j <= |r| && t == r[i..j];
    forall k | 0 <= k < |t|
      ensures NotAngle(t[k])
    {
      assert t[k] == r[i + k];
    }
  }

  /** `truncateString`: the first `maxLength` characters and an ellipsis when the text is longer. */
  function Truncate(s: string, maxLength: int): (r: string)
    ensures s == [] ==> r == []
    ensures |s| <= maxLength ==> r == s
    ensures s != [] && |s| > maxLength ==>
      var kept := if maxLength < 0 then 0 else maxLength;
      |r| == kept + 3 && r[..kept] == s[..kept] && r[kept..] == "..."
  {
    if s == [] then []
    else if |s| > maxLength then s[..if maxLength < 0 then 0 else maxLength] + "..."
    else s
  }

  /** Truncating an already truncated text changes nothing. */
  lemma TruncateIdempotent(s: string, maxLength: int)
    ensures Truncate(Truncate(s, maxLength), maxLength) == Truncate(s, maxLength)
  {
    var r := Truncate(s, maxLength);
    if s != [] && |s| > maxLength {
      var kept := if maxLength < 0 then 0 else maxLength;
      assert r[..kept] + "..." == r;
    }
  }

  // ---------------------------------------------------------------------------
  // Colours

  function HexDigit(c: char): Option<nat>
  {
    if '0' <= c <= '9' then Some(c as int - '0' as int)
    else if 'a' <= c <= 'f' then Some(c as int - 'a' as int + 10)
    else if 'A' <= c <= 'F' then Some(c as int - 'A' as int + 10)
    else None
  }

  /** Two hex digits as one byte. */
  function HexByte(hi: char, lo: char): (r: Option<nat>)
    ensures r.Some? ==> r.value < 256
  {
    match (HexDigit(hi), HexDigit(lo))
    case (Some(h), Some(l)) => assert h < 16 && l < 16; Some(16 * h + l)
    case _ => None
  }

  /** The colour part of `hexToRgba`: an optional '#' and exactly six hex digits, in either case. */
  function ParseHexColor(s: string): (r: Option<(nat, nat, nat)>)
    ensures r.Some? ==> r.value.0 < 256 && r.value.1 < 256 && r.value.2 < 256
    ensures r.Some? ==> |s| == 6 || (|s| == 7 && s[0] == '#')
  {
    SixHex(if |s| > 0 && s[0] == '#' then s[1..] else s)
  }

  /** The three channels of exactly six hex digits. */
  function SixHex(h: string): (r: Option<(nat, nat, nat)>)
    ensures r.Some? ==> |h| == 6 && r.value.0 < 256 && r.value.1 < 256 && r.value.2 < 256
  {
    if |h| != 6 then None
    else match (HexByte(h[0], h[1]), HexByte(h[2], h[3]), HexByte(h[4], h[5]))
      case (Some(r), Some(g), Some(b)) => Some((r, g, b))
      case _ => None
  }

  predicate HexDigits(h: string)
  {
    forall i :: 0 <= i < |h| ==> HexDigit(h[i]).Some?
  }

  /** The two-digit base-16 value of `h[i]` and `h[i + 1]`. */
  function Channel(h: string, i: nat): nat
    requires i + 1 < |h| && HexDigit(h[i]).Some? && HexDigit(h[i + 1]).Some?
  {
    16 * HexDigit(h[i]).value + HexDigit(h[i + 1]).value
  }

  /**
   * Exactly the six-hex-digit texts, upper or lower case, with or without a
   * leading '#', are colours; each channel is the base-16 value of its pair
   * of digits.
   */
  lemma ParseHexColorExact(s: string)
    ensures ParseHexColor(s).Some? <==>
      (|s| == 6 && HexDigits(s)) || (|s| == 7 && s[0] == '#' && HexDigits(s[1..]))
    ensures ParseHexColor(s).Some? ==>
      var h := s[|s| - 6..];
      HexDigits(h) && ParseHexColor(s).value == (Channel(h, 0), Channel(h, 2), Channel(h, 4))
  {
    if |s| > 0 && s[0] == '#' {
      var h := s[1..];
      assert ParseHexColor(s) == SixHex(h);
      SixHexExact(h);
      assert !HexDigits(s) by { assert HexDigit(s[0]) == None; }
      if |h| == 6 {
        assert h == s[|s| - 6..];
      }
    } else {
      assert ParseHexColor(s) == SixHex(s);
      SixHexExact(s);
      if |s| == 6 {
        assert s == s[|s| - 6..];
      }
    }
  }

  lemma SixHexExact(h: string)
    ensures SixHex(h).Some? <==> |h| == 6 && HexDigits(h)
    ensures SixHex(h).Some? ==> HexDigits(h) && SixHex(h).value == (Channel(h, 0), Channel(h, 2), Channel(h, 4))
  {
    if |h| == 6 {
      HexByteExact(h[0], h[1]);
      HexByteExact(h[2], h[3]);
      HexByteExact(h[4], h[5]);
      if !HexDigits(h) {
        var i :| 0 <= i < 6 && HexDigit(h[i]).None?;
        assert i == 0 || i == 1 || i == 2 || i == 3 || i == 4 || i == 5;
      }
    }
  }

  lemma HexByteExact(a: char, b: char)
    ensures HexByte(a, b).Some? <==> HexDigit(a).Some? && HexDigit(b).Some?
    ensures HexByte(a, b).Some? ==> HexByte(a, b).value == 16 * HexDigit(a).value + HexDigit(b).value
  {
  }

  const DefaultColor: (nat, nat, nat) := (212, 175, 55)

  /** `hexToRgba`'s colour: the parsed colour, or the gold default when the text is not one. */
  function HexToRgb(s: string): (r: (nat, nat, nat))
    ensures r.0 < 256 && r.1 < 256 && r.2 < 256
    ensures r != DefaultColor ==> ParseHexColor(s) == Some(r)
  {
    match ParseHexColor(s)
    case Some(c) => c
    case None => DefaultColor
  }

  function HexChar(n: nat): char
    requires n < 16
  {
    if n < 10 then ('0' as int + n) as char else ('a' as int + n - 10) as char
  }

  /** The "#rrggbb" spelling of a colour. */
  function ToHex(r: nat, g: nat, b: nat): string
    requires r < 256 && g < 256 && b < 256
  {
    ['#', HexChar(r / 16), HexChar(r % 16), HexChar(g / 16), HexChar(g % 16), HexChar(b / 16), HexChar(b % 16)]
  }

  /** Every colour written as "#rrggbb" reads back as itself. */
  lemma HexRoundTrip(r: nat, g: nat, b: nat)
    requires r < 256 && g < 256 && b < 256
    ensures ParseHexColor(ToHex(r, g, b)) == Some((r, g, b))
    ensures HexToRgb(ToHex(r, g, b)) == (r, g, b)
  {
    var s := ToHex(r, g, b);
    var h := s[1..];
    assert h == [s[1], s[2], s[3], s[4], s[5], s[6]];
    HexByteOf(r);
    HexByteOf(g);
    HexByteOf(b);
    assert HexByte(h[0], h[1]) == Some(r);
    assert HexByte(h[2], h[3]) == Some(g);
    assert HexByte(h[4], h[5]) == Some(b);
  }

  lemma HexByteOf(n: nat)
    requires n < 256
    ensures HexByte(HexChar(n / 16), HexChar(n % 16)) == Some(n)
  {
    HexDigitOf(n / 16);
    HexDigitOf(n % 16);
  }

  lemma HexDigitOf(n: nat)
    requires n < 16
    ensures HexDigit(HexChar(n)) == Some(n)
  {
  }
}

=== FILE: sequences.dfy ===
/**
 * The array built-ins the source leans on, on sequences: `filter` and a
 * stable `sort` by an integer key in either direction.
 */
module Sequences {

  /** `s.filter(p)`: the elements satisfying `p`, in their original order. */
  function Keep<T>(s: seq<T>, p: T -> bool): (r: seq<T>)
    ensures |r| <= |s|
    ensures forall i :: 0 <= i < |r| ==> r[i] in s && p(r[i])
    ensures forall i :: 0 <= i < |s| && p(s[i]) ==> s[i] in r
    ensures (forall i :: 0 <= i < |s| ==> p(s[i])) ==> r == s
  {
    if s == [] then []
    else
      var init := s[..|s| - 1];
      assert s == init + [s[|s| - 1]];
      Keep(init, p) + (if p(s[|s| - 1]) then [s[|s| - 1]] else [])
  }

  /** Filtering works piecewise, so what survives keeps its relative order. */
  lemma {:induction false} KeepAppend<T>(a: seq<T>, b: seq<T>, p: T -> bool)
    ensures Keep(a + b, p) == Keep(a, p) + Keep(b, p)
  {
    if b != [] {
      var b' := b[..|b| - 1];
      assert a + b == (a + b') + [b[|b| - 1]];
      assert (a + b)[..|a + b| - 1] == a + b';
      KeepAppend(a, b', p);
    } else {
      assert a + b == a;
    }
  }

  lemma KeepAppendOne<T>(s: seq<T>, x: T, p: T -> bool)
    ensures Keep(s + [x], p) == Keep(s, p) + (if p(x) then [x] else [])
  {
    assert (s + [x])[..|s|] == s;
  }

  /** Nothing is kept when no element satisfies the predicate. */
  lemma {:induction false} KeepNone<T>(s: seq<T>, p: T -> bool)
    requires forall i :: 0 <= i < |s| ==> !p(s[i])
    ensures Keep(s, p) == []
  {
    if s != [] {
      var init := s[..|s| - 1];
      assert s == init + [s[|s| - 1]];
      KeepNone(init, p);
    }
  }

  predicate Precedes<T>(key: T -> int, desc: bool, a: T, b: T)
  {
    if desc then key(a) >= key(b) else key(a) <= key(b)
  }

  predicate Ordered<T>(s: seq<T>, key: T -> int, desc: bool)
  {
    forall i, j :: 0 <= i < j < |s| ==> Precedes(key, desc, s[i], s[j])
  }

  /**
   * Inserts `x`, which came later in the input than everything in `s`,
   * after every element whose key ties with it.
   */
  function Insert<T>(s: seq<T>, x: T, key: T -> int, desc: bool): (r: seq<T>)
    ensures multiset(r) == multiset(s) + multiset{x}
  {
    if s == [] then [x]
    else if !Precedes(key, desc, s[0], x) then [x] + s
    else
      assert s == [s[0]] + s[1..];
      [s[0]] + Insert(s[1..], x, key, desc)
  }

  lemma {:induction false} InsertOrdered<T>(s: seq<T>, x: T, key: T -> int, desc: bool)
    requires Ordered(s, key, desc)
    ensures Ordered(Insert(s, x, key, desc), key, desc)
  {
    if s != [] && Precedes(key, desc, s[0], x) {
      var rest := Insert(s[1..], x, key, desc);
      InsertOrdered(s[1..], x, key, desc);
      forall j | 0 <= j < |rest|
        ensures Precedes(key, desc, s[0], rest[j])
      {
        assert rest[j] in multiset(rest);
        if rest[j] != x {
          assert rest[j] in multiset(s[1..]);
          var k :| 0 <= k < |s[1..]| && s[1..][k] == rest[j];
          assert s[k + 1] == rest[j];
        }
      }
    }
  }

  /** `[...s].sort(cmp)` with `cmp` comparing `key` ascending, or descending when `desc`. */
  function Sort<T>(s: seq<T>, key: T -> int, desc: bool): (r: seq<T>)
    ensures Ordered(r, key, desc)
    ensures multiset(r) == multiset(s)
  {
    if s == [] then []
    else
      var init := s[..|s| - 1];
      assert s == init + [s[|s| - 1]];
      InsertOrdered(Sort(init, key, desc), s[|s| - 1], key, desc);
      Insert(Sort(init, key, desc), s[|s| - 1], key, desc)
  }

  /** The first `n` elements of an ordered sequence come before every element left out. */
  lemma OrderedPrefix<T>(s: seq<T>, key: T -> int, desc: bool, n: nat)
    requires Ordered(s, key, desc) && n <= |s|
    ensures Ordered(s[..n], key, desc)
    ensures multiset(s[..n]) <= multiset(s)
    ensures forall x, y :: x in multiset(s) - multiset(s[..n]) && y in s[..n] ==> Precedes(key, desc, y, x)
  {
    assert s == s[..n] + s[n..];
    assert multiset(s) - multiset(s[..n]) == multiset(s[n..]);
    forall x, y | x in multiset(s) - multiset(s[..n]) && y in s[..n]
      ensures Precedes(key, desc, y, x)
    {
      assert x in s[n..];
      var k :| n <= k < |s| && s[k] == x;
      var j :| 0 <= j < n && s[j] == y;
    }
  }
}

=== FILE: text.dfy ===
/**
 * The JavaScript string built-ins the two source files lean on:
 * `Number.prototype.toString()` for non-negative integers, `padStart`,
 * reading a run of decimal digits back, and `String.prototype.trim`.
 */
module Text {

  predicate IsDigit(c: char) { '0' <= c <= '9' }

  predicate AllDigits(s: string) { forall i :: 0 <= i < |s| ==> IsDigit(s[i]) }

  function DigitChar(d: nat): (c: char)
    requires d < 10
    ensures IsDigit(c)
  {
    (('0' as int) + d) as char
  }

  function DigitValue(c: char): nat
    requires IsDigit(c)
  {
    (c as int) - ('0' as int)
  }

  /** Decimal rendering of a non-negative integer, as `n.toString()`. */
  function NatToString(n: nat): (s: string)
    ensures 1 <= |s| && AllDigits(s)
    ensures |s| == 1 <==> n < 10
    ensures n < 100 ==> |s| <= 2
  {
    if n < 10 then [DigitChar(n)] else NatToString(n / 10) + [DigitChar(n % 10)]
  }

  /** The number a string of decimal digits denotes (leading zeros allowed). */
  function DigitsValue(s: string): nat
    requires AllDigits(s)
  {
    if s == [] then 0 else DigitsValue(s[..|s| - 1]) * 10 + DigitValue(s[|s| - 1])
  }

  lemma {:induction false} NatToStringValue(n: nat)
    ensures DigitsValue(NatToString(n)) == n
  {
    if n >= 10 {
      var s := NatToString(n);
      assert s[..|s| - 1] == NatToString(n / 10);
      NatToStringValue(n / 10);
    }
  }

  /** `toString` writes no leading zero: the first digit is '0' only for 0 itself. */
  lemma {:induction false} NatToStringLead(n: nat)
    ensures NatToString(n)[0] == '0' <==> n == 0
  {
    if n >= 10 {
      NatToStringLead(n / 10);
      assert NatToString(n)[0] == NatToString(n / 10)[0];
    }
  }

  /** A digit string with no leading zero is the `toString` of the number it denotes. */
  lemma {:induction false} PlainDigits(s: string)
    requires s != [] && AllDigits(s) && s[0] != '0'
    ensures DigitsValue(s) > 0 && s == NatToString(DigitsValue(s))
    decreases |s|
  {
    var init, last := s[..|s| - 1], s[|s| - 1];
    assert s == init + [last];
    if init == [] {
      assert DigitsValue(s) == DigitValue(last);
      assert DigitChar(DigitValue(last)) == last;
    } else {
      assert init[0] == s[0];
      PlainDigits(init);
      var v, d := DigitsValue(init), DigitValue(last);
      assert DigitsValue(s) == v * 10 + d;
      assert (v * 10 + d) / 10 == v && (v * 10 + d) % 10 == d;
      assert DigitChar(d) == last;
    }
  }

  function Repeat(c: char, k: nat): (r: string)
    ensures |r| == k && forall i :: 0 <= i < k ==> r[i] == c
  {
    if k == 0 then [] else [c] + Repeat(c, k - 1)
  }

  /** `s.padStart(width, fill)` with a one-character fill string. */
  function PadStart(s: string, width: nat, fill: char): (r: string)
    ensures |r| == if |s| < width then width else |s|
    ensures r[|r| - |s|..] == s
    ensures forall i :: 0 <= i < |r| - |s| ==> r[i] == fill
  {
    if |s| < width then Repeat(fill, width - |s|) + s else s
  }

  lemma {:induction false} LeadingZeroValue(s: string)
    requires AllDigits(s)
    ensures AllDigits("0" + s) && DigitsValue("0" + s) == DigitsValue(s)
  {
    var t := "0" + s;
    if s != [] {
      assert t[..|t| - 1] == "0" + s[..|s| - 1];
      LeadingZeroValue(s[..|s| - 1]);
    }
  }

  /** Zero padding never changes the number a digit string denotes. */
  lemma {:induction false} ZeroPadValue(s: string, width: nat)
    requires AllDigits(s)
    ensures AllDigits(PadStart(s, width, '0'))
    ensures DigitsValue(PadStart(s, width, '0')) == DigitsValue(s)
    decreases width - |s|
  {
    if |s| < width {
      LeadingZeroValue(s);
      ZeroPadValue("0" + s, width);
      assert PadStart(s, width, '0') == PadStart("0" + s, width, '0');
    }
  }

  /** Splits off the longest leading run of decimal digits. */
  function TakeDigits(s: string): (r: (string, string))
    ensures r.0 + r.1 == s && AllDigits(r.0)
    ensures r.1 == [] || !IsDigit(r.1[0])
  {
    if s != [] && IsDigit(s[0]) then
      var (d, t) := TakeDigits(s[1..]);
      assert [s[0]] + (d + t) == s;
      ([s[0]] + d, t)
    else
      ([], s)
  }

  lemma {:induction false} TakeDigitsOf(d: string, t: string)
    requires AllDigits(d) && (t == [] || !IsDigit(t[0]))
    ensures TakeDigits(d + t) == (d, t)
  {
    if d != [] {
      assert (d + t)[0] == d[0] && (d + t)[1..] == d[1..] + t;
      TakeDigitsOf(d[1..], t);
      assert [d[0]] + d[1..] == d;
    } else {
      assert d + t == t;
    }
  }

  /**
   * The characters `String.prototype.trim` removes: the ECMAScript
   * WhiteSpace and LineTerminator code points.
   */
  predicate IsSpace(c: char)
  {
    c == ' ' || c == '\t' || c == '\n' || c == '\r' || c == '\U{000B}' || c == '\U{000C}'
    || c == '\U{00A0}' || c == '\U{1680}' || ('\U{2000}' <= c <= '\U{200A}')
    || c == '\U{2028}' || c == '\U{2029}' || c == '\U{202F}' || c == '\U{205F}'
    || c == '\U{3000}' || c == '\U{FEFF}'
  }

  function TrimStart(s: string): (r: string)
    ensures |r| <= |s| && r == s[|s| - |r|..]
    ensures forall i :: 0 <= i < |s| - |r| ==> IsSpace(s[i])
    ensures r == [] || !IsSpace(r[0])
  {
    if s != [] && IsSpace(s[0]) then TrimStart(s[1..]) else s
  }

  function TrimEnd(s: string): (r: string)
    ensures |r| <= |s| && r == s[..|r|]
    ensures forall i :: |r| <= i < |s| ==> IsSpace(s[i])
    ensures r == [] || !IsSpace(r[|r| - 1])
  {
    if s != [] && IsSpace(s[|s| - 1]) then TrimEnd(s[..|s| - 1]) else s
  }

  /** `s.trim()`: the infix of `s` left once the blank ends are cut away. */
  function Trim(s: string): (r: string)
    ensures exists i, j :: 0 <= i <= j <= |s| && r == s[i..j]
              && (forall k :: 0 <= k < i ==> IsSpace(s[k]))
              && (forall k :: j <= k < |s| ==> IsSpace(s[k]))
    ensures r == [] || (!IsSpace(r[0]) && !IsSpace(r[|r| - 1]))
  {
    var a := TrimStart(s);
    var b := TrimEnd(a);
    var i := |s| - |a|;
    assert b == s[i..i + |b|];
    b
  }

  /** A text with no white space at either end trims to itself. */
  lemma TrimUnchanged(s: string)
    requires s != [] && !IsSpace(s[0]) && !IsSpace(s[|s| - 1])
    ensures Trim(s) == s
  {
    assert TrimStart(s) == s;
    assert TrimEnd(s) == s;
  }

  /** A character followed by one space trims to the character. */
  lemma TrimLastSpace(c: char)
    requires !IsSpace(c)
    ensures Trim([c, ' ']) == [c]
  {
    assert TrimStart([c, ' ']) == [c, ' '];
    assert [c, ' '][..1] == [c];
    assert TrimEnd([c]) == [c];
  }
}

=== FILE: wrappers.dfy ===
/** The optional value used wherever the source yields `null`/`undefined`. */
module Wrappers {
  datatype Option<+T> = None | Some(value: T)
}
